=== FILE: README.md ===
# book-review, modelled in Dafny

A model of the back end of a book-review service: an Express API over three
Mongoose collections (books, reviews, users). A signed-in user adds a book,
reviews a book at most once, and edits or deletes their own reviews. Every
review write fires a post hook that recomputes the reviewed book's stored
aggregate (`averageRating`, `reviewsCount`) from scratch. A middleware decides
from the `Authorization` header, the token and the route's permitted roles
whether a request reaches its controller.

The model is functional. The database is a `Db` of three sequences in
insertion order, and every controller is a step function from a `Db` and a
request to an outcome (a reply sent, or an error forwarded to the global
error handler) and a new `Db`. The central invariant is `Integrity.Wellformed`:

- ids are unique;
- there is at most one review per (book, user) pair;
- every stored review names a well-formed book id;
- every book's stored pair equals the aggregate of its current reviews: `null`/0 when it has none, otherwise the mean rounded to two places and the count;
- stored users have unique ids and emails, the role "User", and emails already trimmed and lower-cased.

Every write operation is proved to preserve it, with `addBook` corrected as in "## Findings" and a recalculation that does not throw.

Modules, following the source tree:

| module | file | models |
|---|---|---|
| `Core` | core.dfy | `Option`, ids, `ObjectId.isValid` as 24 hex digits in either case |
| `JsString` | js_string.dfy | the JavaScript string built-ins the code uses: `trim`, `toLowerCase` on ASCII letters only, `indexOf`, `lastIndexOf`, `substring`, `split`, number-to-string |
| `Collections` | collections.dfy | find-first, filter, delete, sort, `skip`/`limit` on sequences |
| `App` | app.js | the JSON envelope, the global error handler, the GET 404 fallback |
| `Schema` | models/*.js | documents, schema defaults and validation, the cascade delete, the email setters and the password hook |
| `Ratings` | utility/ratings.js | `recalcBookRating` |
| `ReviewHooks` | models/reviews.js | the three post hooks |
| `Integrity` | — | the invariant above |
| `Query` | — | the listing shared by `getBooks` and `getUser`: filter, sort, skip, limit, total |
| `BooksController`, `ReviewsController`, `UsersController` | controller/*.js | the handlers |
| `Jwt` | utility/jwt.js | token claims, expiry, `parseJwt` |
| `Auth` | middleware/auth.js | `ensureAuth` and `setModule` |
| `Uploads` | routes/book.routes.js, routes/users.routes.js | the multer file names |
| `Routes` | routes/*.js | the route tables, their guards and their uploads |

External services are function parameters:

- bcrypt `hash` and `compare`;
- `jwt.sign` and `jwt.verify`;
- the segment parser of `parseJwt`;
- the `$regex` test (`matches`) and the sort field (`rank`);
- the clock (`nowMs`), `Math.random`, and the ids MongoDB assigns (`newId`);
- whether a post hook's recalculation throws (`hookFails`).

Some behaviour the code has, and the model keeps:

- `createReview` with a malformed book id calls `res.sendJson`, which does not exist. The TypeError goes to the global handler, so the client gets a 500 and nothing is stored (`ReviewsController.MalformedBookIdStoresNothing`).
- `findOneAndUpdate` runs no validators, so an update can store a rating outside 1 to 5. The recomputed average follows it (`ReviewsController.UpdateCanLeaveRange`).
- `deleteBook` gives the same 404 for "no such book" and "not yours" (`BooksController.NotOwnerLooksMissing`). It does not check the id first, so a malformed id is a CastError and a 500.
- No user route is guarded. Anyone can list or delete users (`Routes.UserRoutesUnguarded`).
- The role enum holds only "User", so the Admin branch of `ensureAuth` never fires for a stored user (`Auth.AdminUnreachable`).

## Model

| member | source | states |
|---|---|---|
| App.Raise | src/app.js:55-58 | a platform error object carries its kind and a non-empty message |
| App.HandleError | src/app.js:47-59 | exactly the string "AccessDenied" becomes 403 "Access Denied!"; anything else is 500 with `message`, else `MongoServerError`, else "Something went wrong!" |
| App.Respond | src/app.js:47-59 | a forwarded error reaches the client as 403 or 500; a sent reply is unchanged |
| App.PlatformErrorsAre500 | src/app.js:55-58 | every platform error reaches the client as a 500 carrying its own message |
| App.Unmatched | src/app.js:39-44 | an unrouted GET gets 404 "Route not found"; other methods get no fallback |
| JsString.TrimStart | src/middleware/auth.js:17 | drops exactly the leading white space of `\s`; the rest is a suffix that does not start with white space |
| JsString.TrimEnd | src/controller/users.controller.js:9 | drops exactly the trailing white space |
| JsString.TrimKeepsInfix | src/controller/users.controller.js:9 | what `trim` keeps is a prefix of what follows the leading white space |
| JsString.TrimDropsOnlySpace | src/controller/users.controller.js:9 | everything `trim` removes, before and after what it keeps, is white space |
| JsString.TrimIsInfix | src/controller/users.controller.js:9 | `trim` keeps an infix of its argument and removes only white space on either side of it |
| JsString.TrimTrims | src/controller/users.controller.js:9 | the result of `trim` is trimmed, and a trimmed string is its own trim |
| JsString.TrimToLower | src/controller/users.controller.js:9 | trimming and lower-casing commute, so the controller's and the schema's orders agree |
| JsString.ToLower | src/controller/users.controller.js:9 | the result has the argument's length, and each character is that character lower-cased |
| JsString.LowerCharFacts | src/controller/users.controller.js:9 | an upper-case ASCII letter becomes its lower-case partner, every other character stays, and white space is untouched |
| JsString.ToLowerFacts | src/controller/users.controller.js:9 | a lower-cased string has no upper-case ASCII letter and differs from its argument exactly at those letters |
| JsString.ToLowerIdempotent | src/models/users.js:17 | lower-casing twice is lower-casing once, and leaves no upper-case letter |
| JsString.LastIndexOf | src/routes/book.routes.js:16 | -1 iff the character is absent; otherwise it is there and nowhere after |
| JsString.IndexOf | src/utility/jwt.js:9 | -1 iff the character is absent; otherwise it is the first occurrence |
| JsString.Substring | src/routes/users.routes.js:13-16 | both ends are clamped into [0, length] and then taken in increasing order: each combination of an end below 0, in range or past the length is pinned, so `substring(-1, n)` on a name of length n (no '.') is the whole name and two ends below 0 give "" |
| JsString.SubstringSwaps | src/routes/users.routes.js:13-16 | the two ends may be given in either order |
| JsString.Split | src/utility/jwt.js:9 | at least one part, and no part contains the separator |
| JsString.JoinSplit | src/utility/jwt.js:9 | joining the parts of a split on the same separator gives back the text |
| JsString.Decimal | src/routes/book.routes.js:15 | a number prints as digits without a leading zero |
| JsString.DecimalRoundTrip | src/routes/book.routes.js:15 | the printed number parses back to itself |
| Collections.FirstIndex | src/controller/books.controller.js:76 | the index of the first matching document, and none iff no document matches |
| Collections.Where | src/controller/books.controller.js:54 | `find(query)` keeps only stored, matching documents |
| Collections.WhereCounts | src/controller/books.controller.js:54 | `find(query)` keeps every matching document exactly as often as it is stored, and no other |
| Collections.WhereConcat | src/controller/books.controller.js:54 | filtering keeps the collection's order: the filter of a concatenation is the concatenation of the filters |
| Collections.SortBy | src/controller/books.controller.js:56 | `sort` returns a sorted permutation of its input |
| Collections.Slice | src/controller/books.controller.js:57-58 | `skip` then `limit` is a contiguous window; limit 0 means no limit and a negative limit its magnitude |
| Collections.SliceAdjacent | src/controller/books.controller.js:57-58 | two consecutive windows of one size make the window of twice that size |
| Collections.RemoveAt | src/controller/reviews.controller.js:73 | deleting one document keeps all others in order |
| Schema.FindBook | src/controller/books.controller.js:76-77 | `findById` finds a stored book with that id, and finds nothing iff no book has it |
| Schema.NewBook | src/models/books.js:4-16 | title, author and createdBy are required; genre is optional; coverImage defaults to ""; the aggregate defaults to null/0 |
| Schema.CascadeBookDelete | src/models/books.js:18-25 | a delete with a valid `_id` succeeds and removes exactly the reviews of that book; a non-empty malformed `_id` is a CastError; without an `_id` nothing is removed |
| Schema.NewReview | src/models/reviews.js:5-13 | a review saves iff both ids cast and the rating is present and within 1 to 5; comment defaults to "" |
| Schema.NewUser | src/models/users.js:6-38 | name, email, password and phone are required; role may only be "User" and defaults to it; email goes through the setters; avatar defaults to "" |
| Schema.HashIfModified | src/models/users.js:41-52 | the password is hashed iff it was modified; nothing else changes |
| Schema.EmailSettersNormalize | src/models/users.js:13-19 | a stored email is trimmed, has no upper-case letter, and is a fixed point of the setters |
| Ratings.RoundHalfUp2 | src/utility/ratings.js:17 | rounding to two places moves a value by at most half a cent, and the result has at most two decimals |
| Ratings.Round2 | src/utility/ratings.js:17 | `toFixed(2)` stays within 0.005 of its input, and its result has at most two decimals |
| Ratings.NegatedHundredths | src/utility/ratings.js:17 | a value with at most two decimals keeps that property when negated |
| Ratings.Round2InRange | src/utility/ratings.js:17 | a value in [1, 5] rounds into [1, 5] |
| Ratings.Round2Idempotent | src/utility/ratings.js:17 | rounding a rounded value changes nothing |
| Ratings.AggregateOf | src/utility/ratings.js:12-18 | the count is the number of the book's ratings; an average exists iff it is positive, lies within 0.005 of the exact mean and has at most two decimals |
| Ratings.RatingsOfConcat | src/utility/ratings.js:12-15 | the ratings a book collects from two runs of reviews are those of each run, in order |
| Ratings.RatingsOfSelected | src/utility/ratings.js:12-15 | the aggregated ratings are exactly those of the reviews `{ bookId }` selects |
| Ratings.NoReviewsIff | src/utility/ratings.js:17-18 | the aggregate is null/0 iff no review names the book |
| Ratings.AggregateCount | src/utility/ratings.js:17-18 | the count is the number of the book's reviews, and an average exists iff the count is positive |
| Ratings.SumBounds | src/utility/ratings.js:14 | a sum of n values in [lo, hi] lies in [n·lo, n·hi] |
| Ratings.MeanWithin | src/utility/ratings.js:14 | the mean of values in [lo, hi] lies in [lo, hi] |
| Ratings.QuotientBounds | src/utility/ratings.js:14 | dividing a sum in [n·lo, n·hi] by a positive n lands in [lo, hi] |
| Ratings.AverageInRange | src/utility/ratings.js:17 | if every contributing rating is within 1 to 5, so is the stored average |
| Ratings.AverageNearMean | src/utility/ratings.js:14-17 | the stored average is within 0.005 of the exact mean |
| Ratings.RatingsOfIgnoresOthers | src/utility/ratings.js:13 | a review of another book contributes nothing |
| Ratings.RatingsOfOffBook | src/models/books.js:18-25 | deleting one book's reviews leaves every other book's ratings unchanged |
| Ratings.RatingsOfReplace | src/controller/reviews.controller.js:47-51 | rewriting a review in place, without moving it to another book, leaves every other book's ratings unchanged |
| Ratings.RatingsOfRemove | src/controller/reviews.controller.js:73 | removing one review leaves the ratings of every book it does not name unchanged |
| Ratings.RecalcBookRating | src/utility/ratings.js:9-27 | a malformed id returns null and writes nothing; otherwise only the book with that id changes, and it is returned when it exists |
| Ratings.RecalcWritesAggregate | src/utility/ratings.js:20-24 | the recalculated book stores exactly the aggregate of its current reviews |
| Ratings.RecalcOverwrites | src/utility/ratings.js:20-24 | whatever the book stored before, the result is the same: both fields are overwritten, never adjusted |
| Ratings.RecalcIdempotent | src/utility/ratings.js:9-27 | recalculating twice is recalculating once |
| Ratings.RecalcRestores | src/utility/ratings.js:9-27 | if only one book's reviews changed, recalculating that book restores consistency for all books |
| ReviewHooks.RecalcHook | src/models/reviews.js:20-44 | a matched document recalculates its book only, which then agrees with the aggregate of the current reviews; a null match or a failing recalculation leaves everything as it was |
| Integrity.EmptyWellformed | src/models/books.js:10-11 | the empty store satisfies the invariant |
| Integrity.HookRestoresConsistency | src/models/reviews.js:20-44 | a write confined to one book's reviews, followed by its hook, keeps every book consistent |
| Integrity.ReviewWritePreserves | src/models/reviews.js:20-44 | a review write that keeps ids and pairs unique, names well-formed book ids and touches one book's ratings, followed by that book's hook, keeps the invariant |
| Integrity.UsersWellformedAppend | src/models/users.js:13-19 | appending a user with a fresh id, a free normalised email and role "User" keeps the users well formed |
| Integrity.UsersWellformedRemoveAt | src/controller/users.controller.js:123 | removing one user keeps the users well formed, and no remaining user has its id |
| Query.OrDefault | src/controller/books.controller.js:29-35 | a missing query parameter takes its default |
| Query.SortOrder | src/controller/books.controller.js:51 | the direction is ascending iff the order is "asc" |
| Query.PageSkip | src/controller/books.controller.js:57 | the skip is 0 on page 1, and non-negative iff the page is at least 1 (for a positive limit) |
| Query.PageSkipNext | src/controller/books.controller.js:57 | each page starts `limit` documents after the previous one |
| Query.Ordered | src/controller/books.controller.js:54-56 | the sorted result is a permutation of the matching documents, sorted by the key |
| Query.List | src/controller/books.controller.js:53-65 | a negative skip is a BadValue error; otherwise the total counts every match and the page is exactly the `skip`/`limit` window of the sorted matches, at most `limit` long |
| Query.TotalIgnoresPaging | src/controller/books.controller.js:60 | the total does not depend on page or limit |
| Query.NextPageContinues | src/controller/books.controller.js:57-58 | page n and page n+1 together are the window of size 2·limit at page n's offset |
| BooksController.AddBookFields | src/controller/books.controller.js:8-13 | an upload sets coverImage to the book image path plus the file name; a signed-in caller becomes createdBy; everything else is the client's |
| BooksController.AddBookAsWritten | src/controller/books.controller.js:6-25 | `addBook` as written: 201 iff validation passes, and the stored average is whatever the client sent |
| BooksController.AddBookAsWrittenBreaksAggregate | src/controller/books.controller.js:15 | a book created with a client-sent average of 5 and no reviews breaks the invariant |
| BooksController.AddBook | src/controller/books.controller.js:6-25 | the corrected `addBook` of "## Findings": 201 iff validation passes, and then the new book is appended with a null/0 aggregate, the caller as creator and the uploaded cover; otherwise a ValidationError and nothing stored |
| BooksController.AddBookPreserves | src/models/books.js:10-11 | adding a book keeps the invariant |
| BooksController.GetBooks | src/controller/books.controller.js:28-66 | defaults page 1, limit 10; the search ORs title, author and genre and ANDs with the author and genre filters; the total counts all matches; the page is exactly the window at `(page - 1) · limit` of the sorted matches |
| BooksController.GetBooksListsSelected | src/controller/books.controller.js:37-54 | every listed book is a stored book the search and the author and genre filters select |
| BooksController.BookTotalIgnoresPaging | src/controller/books.controller.js:60 | two queries with the same filters report the same total |
| BooksController.BookPagesContinue | src/controller/books.controller.js:57-58 | consecutive pages of the book listing are contiguous |
| BooksController.GetBookById | src/controller/books.controller.js:69-112 | 400 for a malformed id before any lookup, then 404 for a missing book, then a negative skip `(page-1)*limit` forwards MongoDB's BadValue (a 500), otherwise 200 with the live aggregate, the unpaged review count and newest-first reviews of that book (defaults page 1, limit 5) |
| BooksController.LiveAggregateMatchesStored | src/controller/books.controller.js:87-94 | in a well-formed store the live average and count equal the stored ones |
| BooksController.DeleteBook | src/controller/books.controller.js:115-136 | a malformed id is a CastError; the book is deleted iff the caller created it, together with all its reviews; otherwise the same 404 and nothing changes |
| BooksController.NotOwnerLooksMissing | src/controller/books.controller.js:118-125 | someone else's book gives exactly the answer a missing book would |
| BooksController.RemovedBookLeavesOthersConsistent | src/models/books.js:18-25 | removing one book and all its reviews leaves every other book consistent, and no other book shares its id |
| BooksController.DeleteBookPreserves | src/controller/books.controller.js:115-136 | deleting a book keeps the invariant, and afterwards neither the book nor any review of it is stored |
| ReviewsController.CreateReview | src/controller/reviews.controller.js:6-30 | a malformed book id forwards an error and stores nothing; a missing book is 404; 201 iff the book exists, the review validates and the caller has not reviewed it, storing (book, caller, rating, comment); users, the number of books and their ids are kept, every other book is unchanged, and after a 201 whose recalculation does not throw the book carries the aggregate of its reviews, the new one included |
| ReviewsController.Patch | src/controller/reviews.controller.js:47-51 | the rating changes only when the new one is truthy, the comment only when one is given; ids never change |
| ReviewsController.PatchIdempotent | src/controller/reviews.controller.js:47-51 | applying an update twice is applying it once, and an empty update changes nothing |
| ReviewsController.UpdateReview | src/controller/reviews.controller.js:33-57 | 400 malformed id, then 404 missing, then 403 not the author, then 200 patching exactly that review; only a 200 changes the store; users, book count and ids are kept, only the review's book may change, and after a 200 whose recalculation does not throw that book (when it exists) carries the aggregate of its reviews |
| ReviewsController.DeleteReview | src/controller/reviews.controller.js:60-79 | the same outcome order; a 200 removes exactly that review; users, book count and ids are kept, only the review's book may change, and after a 200 whose recalculation does not throw that book (when it exists) carries the aggregate of its remaining reviews |
| ReviewsController.HookFailureInvisible | src/models/reviews.js:21-25 | whether the recalculation throws changes neither the reply nor the stored reviews |
| ReviewsController.CreateReviewPreserves | src/controller/reviews.controller.js:19-20 | creating a review keeps the invariant, one review per pair included |
| ReviewsController.UpdateReviewPreserves | src/controller/reviews.controller.js:47-51 | updating a review keeps the invariant |
| ReviewsController.UniqueByAfterRemove | src/controller/reviews.controller.js:73 | removing a review keeps ids and pairs unique |
| ReviewsController.DeleteReviewPreserves | src/controller/reviews.controller.js:73 | deleting a review keeps the invariant |
| ReviewsController.SecondReviewRejected | src/models/reviews.js:16 | a second review of the same book by the same user fails and stores nothing |
| ReviewsController.MalformedBookIdStoresNothing | src/controller/reviews.controller.js:12-14 | a malformed book id stores nothing and the client sees a 500 |
| ReviewsController.UpdateCanLeaveRange | src/controller/reviews.controller.js:47-51 | an update to rating 7 is stored, and the book's average becomes 7 |
| ReviewsController.SingleRatingAggregate | src/utility/ratings.js:14-18 | a book with a single review stores that rating rounded to two places, and the count 1 |
| Jwt.NowSeconds | src/utility/jwt.js:14 | the current second is the millisecond clock floored to seconds |
| Jwt.ExpiresAt | src/utility/jwt.js:14 | the expiry is the current second plus 86400 |
| Jwt.ClaimsOf | src/utility/jwt.js:15-22 | the payload carries the user's id, email, name, avatar and role, and the expiry |
| Jwt.CreateAccessToken | src/utility/jwt.js:13-34 | the token is the signature of the claims, and the stored users are unchanged whether the bookkeeping update completes or throws |
| Jwt.BookkeepingInvisible | src/utility/jwt.js:24-31 | the caller cannot tell whether the bookkeeping update completed or threw |
| Schema.StrictUserPaths | src/models/users.js:6-38 | strict mode keeps exactly the update paths the user schema declares |
| Jwt.ParseJwt | src/utility/jwt.js:8-10 | a token without '.' has no payload |
| Jwt.ParseJwtReadsPayload | src/utility/jwt.js:8-10 | for header.payload.signature, the second segment is parsed, unverified |
| Auth.AuthReply | src/middleware/auth.js:4-67 | the passing outcomes send nothing; refused is 403 "Not authorized", invalid and expired tokens 401 "Invalid token" and "Token expired", an unknown user 404 "User not found", a lookup error 500 "Server error" |
| Auth.StripBearer | src/middleware/auth.js:17 | a header starting with "Bearer" and white space loses exactly that prefix; any other header is unchanged |
| Auth.StripBearerRoundTrip | src/middleware/auth.js:17 | "Bearer", any white space, then a token gives back the token |
| Auth.ExpiryBoundary | src/middleware/auth.js:22 | the expiry second itself still passes, the next one does not, and a missing expiry never expires |
| Auth.TokenLifetimeHolds | src/utility/jwt.js:14 | a token issued at second t passes the expiry check at any second up to t + 86400 |
| Auth.FindUserById | src/middleware/auth.js:36 | no id finds nothing; a malformed id fails the cast; otherwise the stored user with that id, if any |
| Auth.FindsStoredUser | src/middleware/auth.js:36 | with unique ids, a stored user's own id finds that user |
| Auth.Authorize | src/middleware/auth.js:4-67 | no header: pass if Guest is permitted, else 403; then invalid token 401, expired 401, lookup error 500, unknown user 404; then pass iff Admin, a permitted role or Guest, carrying the stored role and global iff Admin; else 403 |
| Auth.GuestNeverRefused | src/middleware/auth.js:6-8 | a Guest route never answers 403 |
| Auth.AdminUnreachable | src/models/users.js:31-36 | with every stored role "User", a passing request is never global |
| Auth.IssuedTokenAdmits | src/middleware/auth.js:17-53 | a stored user's own token, sent as "Bearer token" within 24 hours to a User route, passes with that user's claims |
| Auth.PermissionSuffix | src/middleware/auth.js:73-86 | exactly GET, POST, PUT, PATCH and DELETE are mapped |
| Auth.SetModule | src/middleware/auth.js:69-88 | GET gives "-read", POST and PUT "-write", PATCH and DELETE "-all"; other verbs keep the prior permission |
| Auth.SetModuleSeparatesClasses | src/middleware/auth.js:73-86 | two verbs get the same permission iff they are in the same class |
| UsersController.EmailKey | src/controller/users.controller.js:9 | the lookup key is what the email setters store |
| UsersController.EmailKeyStable | src/controller/users.controller.js:9 | normalising a stored email changes nothing |
| UsersController.FindByEmail | src/controller/users.controller.js:8-10 | finds a stored user with that email, and nothing iff there is none |
| UsersController.LogIn | src/controller/users.controller.js:4-47 | a missing email (or a found user with a missing password) is a 500 TypeError; then 404 unknown email, then 400 wrong trimmed password, then 200 with the token and the password-free profile |
| UsersController.ProfileOf | src/controller/users.controller.js:64-65 | the sign-up reply keeps every stored field but the password |
| UsersController.SignUpFields | src/controller/users.controller.js:52-59 | the email is normalised; an upload sets the avatar to the user picture path plus the file name, otherwise null |
| UsersController.Register | src/controller/users.controller.js:61-71 | 201 iff the user validates and the email is free, appending the user and replying with its profile; otherwise an error and nothing stored |
| UsersController.SignUpAsWritten | src/controller/users.controller.js:50-75 | `SignUp` as written: a missing email is a TypeError; a stored password is the hash of the untrimmed one |
| UsersController.AnnFieldsAsWritten | src/controller/users.controller.js:52-59 | the untrimmed sign-up passes the password on exactly as sent |
| UsersController.AnnValidates | src/models/users.js:41-52 | those fields validate, and the stored password is the hash of " pw ", spaces included |
| UsersController.SignUpAsWrittenStoresUntrimmed | src/controller/users.controller.js:52-62 | signing up with " pw " stores the hash of " pw " |
| UsersController.SignUpAsWrittenLocksOut | src/controller/users.controller.js:19 | after that sign-up, no password logs in |
| UsersController.SignUp | src/controller/users.controller.js:50-75 | the corrected `SignUp` of "## Findings": 201 iff an email is given that normalises to a non-empty key no stored user has, and name, trimmed password and phone are non-empty and the role is absent or "User"; on 201 the stored user has the new id, the normalised email, the hash of the trimmed password, role "User", the uploaded avatar or null, and the reply is its profile; otherwise nothing is stored |
| UsersController.SignUpPreserves | src/models/users.js:13-19 | signing up keeps ids and emails unique and emails normalised |
| UsersController.SignUpThenLogIn | src/controller/users.controller.js:9-27 | whoever signs up can log in with the same email and password |
| UsersController.GetUsers | src/controller/users.controller.js:78-117 | defaults page 1, limit 10; the search ORs name, email and phone; the total counts all matches; the page is the password-free summaries of exactly the window at `(page - 1) · limit` of the sorted matches, in order |
| UsersController.GetUsersListsSelected | src/controller/users.controller.js:78-117 | every listed summary is that of a stored user the search selects |
| UsersController.DeleteUser | src/controller/users.controller.js:120-137 | a malformed id is a 500 with the cast error; 404 iff no user has the id; otherwise 200 and exactly that user removed; no ownership check |
| UsersController.DeleteUserPreserves | src/controller/users.controller.js:120-137 | deleting a user keeps the invariant and leaves no user with that id |
| UsersController.DeleteUserTwice | src/controller/users.controller.js:123-133 | deleting the same user again is a 404 |
| Uploads.CoverExtension | src/routes/book.routes.js:16 | the extension is the suffix from the last '.', or the whole name when there is none |
| Uploads.AvatarExtension | src/routes/users.routes.js:13-16 | the same extension, computed with an explicit end |
| Uploads.ExtensionsAgree | src/routes/users.routes.js:13-16 | both routes cut the same extension |
| Uploads.ExtensionUnique | src/routes/book.routes.js:16 | a name has only one extension |
| Uploads.StoredFileName | src/routes/book.routes.js:15-17 | the stored name is as long as the printed time, '-', the printed random number and the extension together |
| Uploads.StoredNameReadsBack | src/routes/book.routes.js:15 | the digits before the first '-' give back the upload time, the digits between it and the extension give back the random number, and the name ends with the extension |
| Uploads.StoredNameKeepsExtension | src/routes/users.routes.js:11-18 | a stored file has the extension of the uploaded one |
| Core.ValidIdExamples | src/controller/books.controller.js:73 | the id check accepts 24 hex digits in either case and rejects 23 digits or a non-hex digit |
| Routes.Router | src/routes/index.routes.js:10-12 | `Router(m)` is the users, books or reviews table exactly when `m` lower-cases to "users", "books" or "reviews", and the empty table otherwise; each table lists, per `router.<verb>(...)` line, the verb, pattern, `ensureAuth` roles, upload field and controller |
| Routes.Untrail | src/routes/book.routes.js:25-28 | `Untrail(p)` is `p` or `p` without one final '/', and a final '/' is always dropped, so `/x/` matches the pattern `/x` as in Express's default non-strict routing |
| Routes.Dispatch | src/routes/book.routes.js:25-28 | the result is the index of a route whose verb is the request's and whose pattern matches its path, with no earlier route doing so; it is None exactly when no route of the table handles the request |
| Routes.Admission | src/routes/reviews.routes.js:7-9 | a route registered with `ensureAuth(roles)` yields exactly `Authorize(header, roles, ...)`; a route registered without it yields PassAnonymous |
| Routes.Serve | src/app.js:36-44 | a request is Handled exactly when `Dispatch` finds a route in `Router(mount)`; that route is in the table, handles the request, and its outcome is the route's `Admission`; otherwise it is NotFound with the `app.get("/*")` reply for its verb |
| Routes.RoutesDisjoint | src/routes/book.routes.js:25-28 | for every mount, verb and path, no two routes i < j of the table both handle the request, so the order of the `router.<verb>` lines does not change which controller runs |
| Routes.AnonymousReviewMutationRefused | src/routes/reviews.routes.js:7-9 | a POST, PUT or DELETE to `/api/reviews/<id>`, with `<id>` a non-empty segment and no Authorization header, reaches a route guarded by `ensureAuth('User')`, is Refused, and gets 403 "Not authorized" |
| Routes.BookReadsOpen | src/routes/book.routes.js:26-27 | a GET that a book route handles reaches `getBooks` or `getBookById`, is never Refused (the guard permits 'Guest'), and without a header passes anonymously |
| Routes.UserRoutesUnguarded | src/routes/users.routes.js:25-28 | every request a user route handles is Handled and passes anonymously, whatever its header: none of the four lines registers `ensureAuth` |
| Routes.UploadsOnlyOnCreate | src/routes/book.routes.js:25 | a handled request has an upload field exactly when it is a POST reaching `addBook` with field "coverImage", or `SignUp` with field "avatar" (users.routes.js:26) |
| Routes.UnroutedRequest | src/app.js:39-44 | below a mount other than users, books or reviews every request is NotFound, and it gets a reply (404 "Route not found") exactly when its verb is GET |

## Left out

- Query execution, `populate`, indexes and transactions: the database is three sequences, and each request is one atomic step. The race between two concurrent recalculations of one book is not modelled.
- `$regex` semantics: the search pattern is tested by a `matches` parameter. Sorting on `orderBy` is a `rank` parameter giving each document an integer key. The model has no `createdAt`, so the default sort field is part of `rank` too.
- Query strings that are not numbers (`parseInt` giving `NaN`) and fractional pages: `page` and `limit` are integers when given.
- bcrypt, `jwt.sign`, `jwt.verify` and base64 are parameters. `decodeToken` is a `decode` function that may fail.
- The bookkeeping update in `createAccessToken` writes `accessToken` and `lastLogin`. The user schema declares neither, and Mongoose's strict mode drops undeclared paths, so the update stores nothing. A failure of it is swallowed. So `User` has no such fields, and the update is an outcome parameter (`Jwt.Bookkeeping`) that leaves the users as they were. The `updatedAt` timestamp it would touch is not modelled.
- `createdAt`/`updatedAt` timestamps: the newest-first review order of `getBookById` is the reverse of insertion order.
- `ObjectId.isValid` is "24 hex digits"; its other accepted forms (any 12-character string) are not modelled.
- UsersController.EmailKey: `toLowerCase` lower-cases the ASCII letters A to Z only. The other scripts' case mappings are not modelled, so "Émile@x.io" and "émile@x.io" are two different emails here, for login and for the unique index, while the real service stores and finds them as one. The same holds for `Schema.EmailSetters`.
- Schema.FindBook: ids are compared as text, so the upper-case spelling of a stored book's hex id finds nothing here, while Mongoose casts both spellings to the same ObjectId. This affects `getBookById`, `createReview` and `deleteBook`. The model promises nothing about ids spelled in upper case.
- Auth.FindUserById: ids are compared as text here too, so an upper-case spelling of a stored user's id finds nothing in `ensureAuth`. The same case-sensitive comparison (`Schema.ReviewWithId`, `Schema.UserWithId`) applies to `updateReview`, `deleteReview` and `deleteUser`, and to the ownership checks that compare a stored `createdBy` or `user` with the caller's id.
- Ratings are exact reals, and `toFixed(2)` is modelled as rounding half away from zero. Binary floating point is not modelled.
- Multer's disk storage, `fs.mkdirSync`, `Date.now` and `Math.random` are left out; the time and the random number are parameters. Express's HEAD-for-GET routing, URL decoding and the body parsers are left out too.
- The exact message of a Mongoose error: a platform error's message is the name of its kind.
- `createdBy` on a user (set by `SignUp` but not declared by the schema) is dropped, as strict mode drops it.
- ReviewsController.UpdateReview: the review that a concurrent delete removes between the lookup and the update (the update then matches nothing and replies with `data: null`) is not modelled, because every request is atomic.
- BooksController.AddBook: an `_id` sent in the body, which `new Book(req.body)` (books.controller.js:15) would keep, is not modelled. The new book's id is the parameter `newId`, standing for the ObjectId Mongoose generates, and the model assumes it is unused: it does not check `newId` against the store. In the service a client `_id` equal to a stored one fails on the `_id` index (E11000), is forwarded as a 500 and stores nothing. `BooksController.AddBookPreserves` requires a fresh id. The same holds for `BooksController.AddBookAsWritten`.
- UsersController.Register: likewise, an `_id` spread from the body into `new User({...req.body, ...})` (users.controller.js:52-61) is not modelled. `newId` is assumed unused, and `UsersController.SignUpPreserves` requires a fresh id. The same holds for `UsersController.SignUp` and `UsersController.SignUpAsWritten`.
- Collections.SortBy: documents with equal `rank` keep their insertion order, because the sort here is a stable insertion sort. MongoDB's `sort` leaves the order of ties unspecified. The contract promises only a sorted permutation, which holds for every tie order, so no tie order is promised.
- ReviewsController.Patch: the JSON body is typed here, with `rating` a number or missing. In the service, a string "0" is truthy in the `rating ? { rating } : {}` test (reviews.controller.js:48), and Mongoose then casts it to the number 0 and stores it. Here only `Some(0.0)` is falsy, and strings, booleans and other JSON values for `rating` or `comment` are not modelled. The same typed body is used by `ReviewsController.CreateReview`.
- UsersController.LogIn: a failing lookup or `compare` (a database or bcrypt error) is not modelled; only a missing email or password reaches the 500 branch.
- Auth.Authorize: a payload whose `id` is not a string is not modelled; a token without an id finds no user.

## Findings

| source | as written | input that shows it | evidently intended | confidence | as-written member | corrected member |
|---|---|---|---|---|---|---|
| src/controller/books.controller.js:15 | `new Book(req.body)` copies `averageRating` and `reviewsCount` from the client | POST /api/books with `{"title":"Dune","author":"Herbert","averageRating":5,"reviewsCount":3}` and no reviews stores an average of 5 | a new book starts with the schema defaults null/0, which the recalculation hook keeps | not executed | BooksController.AddBookAsWrittenBreaksAggregate | BooksController.AddBookPreserves |
| src/controller/users.controller.js:52-62 | `SignUp` stores the hash of the password as sent, but `logInAdmin` compares `password.trim()` | signing up with password " pw " and then logging in with " pw " compares "pw" to the hash of " pw " and answers 400 | the same normalisation on both sides, so a user can always log in with the password they signed up with | not executed | UsersController.SignUpAsWrittenLocksOut | UsersController.SignUpThenLogIn |

=== FILE: app.dfy ===
/**
 * The HTTP envelope, the errors handlers pass to `next(err)`, the global error
 * handler and the GET fallback of the Express application (src/app.js).
 */
module App {
  import opened Core

  /** Where an error object comes from: Mongoose validation, casting, the unique index, the server, or the JavaScript runtime. */
  datatype ErrorKind = ValidationError | CastError | DuplicateKey | BadValue | TypeError

  /**
   * A value given to `next(err)`: a thrown string, or an error object whose
   * `message` and `MongoServerError` properties are strings ("" standing for a
   * missing or empty property, both falsy in JavaScript).
   */
  datatype ErrorValue =
    | Thrown(text: string)
    | Failure(kind: ErrorKind, message: string, mongoServerError: string)

  /** The status code and `message` of a JSON envelope `{ status, message, ... }`; "" when the envelope has no message. */
  datatype Reply = Reply(status: int, message: string)

  /** What a handler does with a request: answer it, or forward an error to the global handler. */
  datatype Outcome = Sent(reply: Reply) | Forwarded(err: ErrorValue)

  function KindName(kind: ErrorKind): string
  {
    match kind
    case ValidationError => "ValidationError"
    case CastError => "CastError"
    case DuplicateKey => "E11000 duplicate key error"
    case BadValue => "BadValue"
    case TypeError => "TypeError"
  }

  /** An error object raised by the platform, its message represented by its kind's name. */
  function Raise(kind: ErrorKind): (e: ErrorValue)
    ensures e.Failure? && e.kind == kind && e.message != ""
  {
    Failure(kind, KindName(kind), "")
  }

  const Fallback500 := "Something went wrong!"

  /** The global error handler: the exact string "AccessDenied" is a 403, everything else a 500. */
  function HandleError(err: ErrorValue): (r: Reply)
    ensures r.status == 403 <==> err == Thrown("AccessDenied")
    ensures r.status == 403 ==> r.message == "Access Denied!"
    ensures r.status != 403 ==> r.status == 500
    ensures r.message != ""
    ensures r.status == 500 && err.Failure? && err.message != "" ==> r.message == err.message
    ensures r.status == 500 && err.Failure? && err.message == "" && err.mongoServerError != "" ==> r.message == err.mongoServerError
    ensures r.status == 500 && (err.Thrown? || (err.message == "" && err.mongoServerError == "")) ==> r.message == Fallback500
  {
    if err == Thrown("AccessDenied") then Reply(403, "Access Denied!")
    else match err
      case Thrown(_) => Reply(500, Fallback500)
      case Failure(_, message, serverError) =>
        Reply(500, if message != "" then message else if serverError != "" then serverError else Fallback500)
  }

  /** The reply the client finally sees for a handler's outcome. */
  function Respond(o: Outcome): (r: Reply)
    ensures o.Forwarded? ==> r.status == 403 || r.status == 500
    ensures o.Sent? ==> r == o.reply
  {
    match o
    case Sent(reply) => reply
    case Forwarded(err) => HandleError(err)
  }

  /** Every error object the platform raises reaches the client as a 500 carrying its own message. */
  lemma PlatformErrorsAre500(kind: ErrorKind)
    ensures Respond(Forwarded(Raise(kind))) == Reply(500, KindName(kind))
  {
  }

  /** The fallback registered after the routers: an unmatched GET gets the JSON 404; other methods are left to Express. */
  function Unmatched(verb: string): (r: Option<Reply>)
    ensures r.Some? <==> verb == "GET"
    ensures r.Some? ==> r.value == Reply(404, "Route not found")
  {
    if verb == "GET" then Some(Reply(404, "Route not found")) else None
  }
}

=== FILE: auth.dfy ===
/**
 * The access-control middleware of src/middleware/auth.js: `ensureAuth(...)`
 * as a decision from the request's `Authorization` header, the route's
 * permitted roles, the token verifier, the clock and the user collection;
 * and `setModule`'s verb-to-permission mapping.
 */
module Auth {
  import opened Core
  import opened JsString
  import opened Collections
  import opened App
  import opened Schema
  import opened Jwt

  const Guest := "Guest"
  const Admin := "Admin"

  /** What the middleware does: let the request through (with or without a user) or answer it. */
  datatype AuthOutcome =
    | PassAnonymous
    | Refused
    | InvalidToken
    | TokenExpired
    | UserNotFound
    | ServerError
    | PassAuthenticated(user: Payload, global: bool)

  /** The reply the middleware sends, None when it calls `next()`. */
  function AuthReply(o: AuthOutcome): (r: Option<Reply>)
    ensures r.None? <==> o.PassAnonymous? || o.PassAuthenticated?
    ensures r.Some? ==> r.value.status in {401, 403, 404, 500}
    ensures o == Refused ==> r == Some(Reply(403, "Not authorized"))
    ensures o == InvalidToken ==> r == Some(Reply(401, "Invalid token"))
    ensures o == TokenExpired ==> r == Some(Reply(401, "Token expired"))
    ensures o == UserNotFound ==> r == Some(Reply(404, "User not found"))
    ensures o == ServerError ==> r == Some(Reply(500, "Server error"))
  {
    match o
    case PassAnonymous => None
    case PassAuthenticated(_, _) => None
    case Refused => Some(Reply(403, "Not authorized"))
    case InvalidToken => Some(Reply(401, "Invalid token"))
    case TokenExpired => Some(Reply(401, "Token expired"))
    case UserNotFound => Some(Reply(404, "User not found"))
    case ServerError => Some(Reply(500, "Server error"))
  }

  /** An `Authorization` header JavaScript treats as true: present and not empty. */
  predicate Present(header: Option<string>)
  {
    header.Some? && header.value != ""
  }

  /** Whether the header starts with what `/^Bearer\s+/` matches. */
  predicate HasBearer(h: string)
  {
    |h| > 6 && h[..6] == "Bearer" && IsSpace(h[6])
  }

  /** `header.replace(/^Bearer\s+/, "")`: the word and all the white space after it go, nothing else. */
  function StripBearer(h: string): (t: string)
    ensures !HasBearer(h) ==> t == h
    ensures HasBearer(h) ==>
              && |t| < |h| - 6
              && h == "Bearer" + h[6..|h| - |t|] + t
              && (forall k :: 6 <= k < |h| - |t| ==> IsSpace(h[k]))
              && (|t| > 0 ==> !IsSpace(t[0]))
  {
    if HasBearer(h) then
      var t := TrimStart(h[6..]);
      assert h == h[..6] + h[6..];
      assert h[6..] == h[6..|h| - |t|] + t;
      t
    else h
  }

  /** The token a client sent as `Bearer <token>` (with any run of white space) is the token the middleware verifies. */
  lemma StripBearerRoundTrip(ws: string, token: string)
    requires |ws| > 0 && forall k :: 0 <= k < |ws| ==> IsSpace(ws[k])
    requires |token| == 0 || !IsSpace(token[0])
    ensures StripBearer("Bearer" + ws + token) == token
  {
    var h := "Bearer" + ws + token;
    assert h[..6] == "Bearer" && h[6] == ws[0];
    assert h[6..] == ws + token;
    TrimStartSkips(ws, token);
  }

  /** `payload.expiresIn < Math.floor(Date.now() / 1000)`; a missing claim compares as false. */
  predicate Expired(expiresIn: Option<int>, nowMs: int)
  {
    expiresIn.Some? && expiresIn.value < NowSeconds(nowMs)
  }

  /** The expiry second itself still passes; the second after it does not. */
  lemma ExpiryBoundary(e: int)
    ensures !Expired(Some(e), e * 1000 + 999)
    ensures Expired(Some(e), (e + 1) * 1000)
    ensures forall nowMs :: !Expired(None, nowMs)
  {
  }

  /** A token issued at millisecond `issuedMs` is accepted at any later millisecond of the following 24 hours. */
  lemma TokenLifetimeHolds(u: User, issuedMs: int, nowMs: int)
    requires NowSeconds(nowMs) <= NowSeconds(issuedMs) + TokenLifetime
    ensures !Expired(ClaimsOf(u, issuedMs).expiresIn, nowMs)
  {
  }

  /** The outcome of `User.findById(id)`. */
  datatype Lookup = Found(user: User) | Missing | LookupFailed

  /** `findById(payload.id)`: no id finds nothing, an id that is not an ObjectId fails the cast. */
  function FindUserById(users: seq<User>, id: Option<Id>): (r: Lookup)
    ensures r.Found? ==> id.Some? && r.user.id == id.value && r.user in users
    ensures r == LookupFailed <==> id.Some? && !ValidId(id.value)
    ensures r == Missing <==> id.None? || (ValidId(id.value) && forall i :: 0 <= i < |users| ==> users[i].id != id.value)
  {
    match id
    case None => Missing
    case Some(x) =>
      if !ValidId(x) then LookupFailed
      else match FirstIndex(users, UserWithId(x))
        case None => Missing
        case Some(k) => Found(users[k])
  }

  /** The role test: an administrator, a permitted role, or a route open to guests. */
  predicate Admits(role: string, permitted: seq<string>)
  {
    role == Admin || role in permitted || Guest in permitted
  }

  /** `ensureAuth(...permitted)` applied to one request. */
  function Authorize(header: Option<string>, permitted: seq<string>, decode: string -> Option<Payload>,
                     nowMs: int, users: seq<User>): (r: AuthOutcome)
    ensures !Present(header) ==> r == (if Guest in permitted then PassAnonymous else Refused)
    ensures Present(header) ==> r != PassAnonymous
    ensures Present(header) && decode(StripBearer(header.value)).None? ==> r == InvalidToken
    ensures r == InvalidToken ==> Present(header) && decode(StripBearer(header.value)).None?
    ensures r == TokenExpired <==>
              Present(header) && decode(StripBearer(header.value)).Some?
              && Expired(decode(StripBearer(header.value)).value.expiresIn, nowMs)
    ensures r == ServerError <==>
              Present(header) && decode(StripBearer(header.value)).Some?
              && !Expired(decode(StripBearer(header.value)).value.expiresIn, nowMs)
              && FindUserById(users, decode(StripBearer(header.value)).value.id) == LookupFailed
    ensures r == UserNotFound <==>
              Present(header) && decode(StripBearer(header.value)).Some?
              && !Expired(decode(StripBearer(header.value)).value.expiresIn, nowMs)
              && FindUserById(users, decode(StripBearer(header.value)).value.id) == Missing
    ensures r.PassAuthenticated? ==>
              && Present(header)
              && var p := decode(StripBearer(header.value)).value;
              && !Expired(p.expiresIn, nowMs)
              && FindUserById(users, p.id).Found?
              && var u := FindUserById(users, p.id).user;
              && Admits(u.role, permitted)
              && r.user == p.(role := u.role)
              && r.global == (u.role == Admin)
    ensures r == Refused && Present(header) ==>
              var p := decode(StripBearer(header.value)).value;
              FindUserById(users, p.id).Found? && !Admits(FindUserById(users, p.id).user.role, permitted)
  {
    if !Present(header) then (if Guest in permitted then PassAnonymous else Refused)
    else
      match decode(StripBearer(header.value))
      case None => InvalidToken
      case Some(p) =>
        if Expired(p.expiresIn, nowMs) then TokenExpired
        else match FindUserById(users, p.id)
          case LookupFailed => ServerError
          case Missing => UserNotFound
          case Found(u) =>
            if Admits(u.role, permitted) then PassAuthenticated(p.(role := u.role), u.role == Admin)
            else Refused
  }

  /** A guest route never refuses: the request passes or its token is rejected. */
  lemma GuestNeverRefused(header: Option<string>, permitted: seq<string>, decode: string -> Option<Payload>,
                          nowMs: int, users: seq<User>)
    requires Guest in permitted
    ensures Authorize(header, permitted, decode, nowMs, users) != Refused
  {
  }

  /** With every stored role "User", the administrator branch never fires. */
  lemma AdminUnreachable(header: Option<string>, permitted: seq<string>, decode: string -> Option<Payload>,
                         nowMs: int, users: seq<User>)
    requires forall i :: 0 <= i < |users| ==> users[i].role == UserRole
    ensures var r := Authorize(header, permitted, decode, nowMs, users);
            r.PassAuthenticated? ==> !r.global && r.user.role == UserRole
  {
  }

  /** A stored user is found by its own id, ids being unique. */
  lemma FindsStoredUser(users: seq<User>, k: nat)
    requires k < |users| && ValidId(users[k].id) && UniqueBy(users, UserKey)
    ensures FindUserById(users, Some(users[k].id)) == Found(users[k])
  {
    var j := FirstIndex(users, UserWithId(users[k].id)).value;
    assert UserKey(users[j]) == UserKey(users[k]);
  }

  /**
   * End to end: the token issued to a stored user, sent as `Bearer <token>`
   * before it expires to a route that permits "User", lets the request through
   * with the user's own claims.
   */
  lemma IssuedTokenAdmits(users: seq<User>, k: nat, issuedMs: int, nowMs: int,
                          sign: Payload -> string, decode: string -> Option<Payload>, permitted: seq<string>,
                          bookkeeping: Bookkeeping)
    requires k < |users| && ValidId(users[k].id) && UniqueBy(users, UserKey)
    requires users[k].role == UserRole && UserRole in permitted
    requires decode(sign(ClaimsOf(users[k], issuedMs))) == Some(ClaimsOf(users[k], issuedMs))
    requires var t := CreateAccessToken(users, users[k], issuedMs, sign, bookkeeping).token; |t| == 0 || !IsSpace(t[0])
    requires NowSeconds(nowMs) <= NowSeconds(issuedMs) + TokenLifetime
    ensures var issued := CreateAccessToken(users, users[k], issuedMs, sign, bookkeeping);
            Authorize(Some("Bearer " + issued.token), permitted, decode, nowMs, issued.users)
              == PassAuthenticated(ClaimsOf(users[k], issuedMs), false)
  {
    var u := users[k];
    var token := CreateAccessToken(users, u, issuedMs, sign, bookkeeping).token;
    var p := ClaimsOf(u, issuedMs);
    var h := "Bearer " + token;
    assert h == "Bearer" + " " + token;
    StripBearerRoundTrip(" ", token);
    assert Present(Some(h)) && StripBearer(h) == token;
    assert decode(StripBearer(h)) == Some(p);
    TokenLifetimeHolds(u, issuedMs, nowMs);
    assert !Expired(p.expiresIn, nowMs);
    FindsStoredUser(users, k);
    assert FindUserById(users, p.id) == Found(u);
    assert Admits(u.role, permitted) && u.role != Admin;
    assert p.(role := u.role) == p;
  }

  /** The permission suffix `setModule` attaches for an HTTP verb, None for a verb it ignores. */
  function PermissionSuffix(verb: string): (s: Option<string>)
    ensures s.Some? <==> verb in {"GET", "POST", "PUT", "PATCH", "DELETE"}
  {
    if verb == "GET" then Some("-read")
    else if verb == "POST" || verb == "PUT" then Some("-write")
    else if verb == "PATCH" || verb == "DELETE" then Some("-all")
    else None
  }

  /**
   * `setModule(module)`: the `permission.module` the request carries afterwards, `prior` when the verb is not mapped.
   * Only `permission.module` is tracked. For a mapped verb the source replaces the whole `permission` object, so a
   * `global` flag set by `ensureAuth` is lost; that flag and `req.module` are not tracked here.
   */
  function SetModule(name: string, verb: string, prior: Option<string>): (r: Option<string>)
    ensures verb == "GET" ==> r == Some(name + "-read")
    ensures verb == "POST" || verb == "PUT" ==> r == Some(name + "-write")
    ensures verb == "PATCH" || verb == "DELETE" ==> r == Some(name + "-all")
    ensures PermissionSuffix(verb).None? ==> r == prior
  {
    match PermissionSuffix(verb)
    case Some(suffix) => Some(name + suffix)
    case None => prior
  }

  /** Reading, writing and full access are told apart: two mapped verbs give the same permission only when they are in the same class. */
  lemma SetModuleSeparatesClasses(name: string, v: string, w: string, prior: Option<string>)
    requires PermissionSuffix(v).Some? && PermissionSuffix(w).Some?
    ensures SetModule(name, v, prior) == SetModule(name, w, prior) <==> PermissionSuffix(v) == PermissionSuffix(w)
  {
    var a := PermissionSuffix(v).value;
    var b := PermissionSuffix(w).value;
    if name + a == name + b {
      assert a == (name + a)[|name|..];
      assert b == (name + b)[|name|..];
    }
  }
}

=== FILE: books_controller.dfy ===
/**
 * The book handlers of src/controller/books.controller.js: add, list, fetch
 * one with its reviews, delete. The query engine's `$regex` test is the
 * parameter `matches(pattern, text)` (case-insensitive by construction) and
 * the `orderBy` field is the parameter `rank`, a book's sort key.
 */
module BooksController {
  import opened Core
  import opened Collections
  import opened App
  import opened Schema
  import opened Ratings
  import opened Integrity
  import opened Query

  /** A handler's outcome, the book it returns as `data`, and the database afterwards. */
  datatype BookStep = BookStep(outcome: Outcome, data: Option<Book>, db: Db)

  /** The URL prefix of stored cover images (`bookImagePath`). */
  const BookImagePath := "/public/images/book/"

  const BookCreated := Reply(201, "Book created successfully")
  const InvalidBookId := Reply(400, "Invalid book id")
  const BookNotFound := Reply(404, "Book not found")
  const BookDetailsFetched := Reply(200, "Book details fetched successfully")
  const NotFoundOrForbidden := Reply(404, "Book not found or you don't have permission to delete it")
  const BookDeleted := Reply(200, "Book deleted successfully")

  // ------------------------------------------------------------------ add

  /** The body `addBook` hands to `new Book(...)`: the uploaded cover and the caller overwrite what the client sent. */
  function AddBookFields(body: BookFields, caller: Option<Id>, file: Option<string>): (f: BookFields)
    ensures file.Some? ==> f.coverImage == Some(BookImagePath + file.value)
    ensures file.None? ==> f.coverImage == body.coverImage
    ensures caller.Some? && caller.value != "" ==> f.createdBy == caller
    ensures !(caller.Some? && caller.value != "") ==> f.createdBy == body.createdBy
    ensures f.title == body.title && f.author == body.author && f.genre == body.genre
    ensures f.averageRating == body.averageRating && f.reviewsCount == body.reviewsCount
  {
    body.(coverImage := if file.Some? then Some(BookImagePath + file.value) else body.coverImage,
          createdBy := if caller.Some? && caller.value != "" then caller else body.createdBy)
  }

  /**
   * `addBook` as written: the whole body reaches the constructor, so a client
   * can choose the new book's `averageRating` and `reviewsCount`.
   */
  function AddBookAsWritten(db: Db, caller: Option<Id>, body: BookFields, file: Option<string>, newId: Id): (r: BookStep)
    ensures r.outcome == Sent(BookCreated) <==> NewBook(newId, AddBookFields(body, caller, file)).Ok?
    ensures r.outcome != Sent(BookCreated) ==> r.outcome == Forwarded(Raise(ValidationError)) && r.db == db
    ensures r.outcome == Sent(BookCreated) ==>
              r.data.Some? && r.db == db.(books := db.books + [r.data.value]) && r.data.value.averageRating == body.averageRating
  {
    match NewBook(newId, AddBookFields(body, caller, file))
    case Err(e) => BookStep(Forwarded(e), None, db)
    case Ok(b) => BookStep(Sent(BookCreated), Some(b), db.(books := db.books + [b]))
  }

  /** `addBook` with the derived fields left to their schema defaults. */
  function AddBook(db: Db, caller: Option<Id>, body: BookFields, file: Option<string>, newId: Id): (r: BookStep)
    ensures r.outcome == Sent(BookCreated) <==> NewBook(newId, AddBookFields(body, caller, file)).Ok?
    ensures r.outcome != Sent(BookCreated) ==> r.outcome == Forwarded(Raise(ValidationError)) && r.db == db
    ensures r.outcome == Sent(BookCreated) ==>
              && r.data.Some? && r.db == db.(books := db.books + [r.data.value])
              && r.data.value.id == newId
              && r.data.value.averageRating.None? && r.data.value.reviewsCount == 0
              && (caller.Some? && caller.value != "" ==> r.data.value.createdBy == caller.value)
              && (file.Some? ==> r.data.value.coverImage == BookImagePath + file.value)
              && (file.None? && body.coverImage.None? ==> r.data.value.coverImage == "")
  {
    AddBookAsWritten(db, caller, body.(averageRating := None, reviewsCount := None), file, newId)
  }

  /** A client-supplied rating survives `addBook` as written and contradicts the book's (empty) reviews. */
  lemma AddBookAsWrittenBreaksAggregate()
    ensures var id := "00000000000000000000000a";
            var caller := "00000000000000000000000b";
            var body := BookFields(Some("Dune"), Some("Herbert"), None, None, Some(5.0), Some(3), None);
            var r := AddBookAsWritten(Db([], [], []), Some(caller), body, None, id);
            && Wellformed(Db([], [], []))
            && r.outcome == Sent(BookCreated)
            && r.db.books[0].averageRating == Some(5.0)
            && AggregateOf(r.db.reviews, id) == NoReviews
            && !Wellformed(r.db)
  {
    var id := "00000000000000000000000a";
    var caller := "00000000000000000000000b";
    assert ValidId(caller);
    EmptyWellformed();
  }

  /** Adding a book with a fresh id keeps the store well formed: the new book's empty aggregate matches its absent reviews. */
  lemma AddBookPreserves(db: Db, caller: Option<Id>, body: BookFields, file: Option<string>, newId: Id)
    requires Wellformed(db) && Unused(db, newId)
    ensures Wellformed(AddBook(db, caller, body, file, newId).db)
  {
    var r := AddBook(db, caller, body, file, newId);
    if r.outcome == Sent(BookCreated) {
      var b := r.data.value;
      UniqueByAppend(db.books, b, BookKey);
      NoReviewsIff(db.reviews, newId);
      var books' := db.books + [b];
      forall i | 0 <= i < |books'|
        ensures Agrees(books'[i], AggregateOf(db.reviews, books'[i].id))
      {
        if i < |db.books| {
          assert books'[i] == db.books[i];
        }
      }
    }
  }

  // ----------------------------------------------------------------- list

  /** The filtering part of `req.query` of `getBooks`; None is a parameter that was not given. */
  datatype BookFilter = BookFilter(search: Option<string>, author: Option<string>, genre: Option<string>)

  /** `req.query` of `getBooks`. */
  datatype BookQuery = BookQuery(filter: BookFilter, limit: Option<int>, page: Option<int>, order: Option<string>)

  /** A regex filter on a field that may be missing: a missing field never matches. */
  predicate FieldMatches(matches: (string, string) -> bool, pattern: string, field: Option<string>)
  {
    field.Some? && matches(pattern, field.value)
  }

  /** The `find(query)` filter: the search term over title, author or genre, AND-ed with the explicit filters. */
  predicate Selects(f: BookFilter, matches: (string, string) -> bool, b: Book)
  {
    && (Given(f.search) ==> matches(f.search.value, b.title) || matches(f.search.value, b.author)
                            || FieldMatches(matches, f.search.value, b.genre))
    && (Given(f.author) ==> matches(f.author.value, b.author))
    && (Given(f.genre) ==> FieldMatches(matches, f.genre.value, b.genre))
  }

  function Filter(f: BookFilter, matches: (string, string) -> bool): Book -> bool
  {
    (b: Book) => Selects(f, matches, b)
  }

  /** The sort key of `sort({ [orderBy]: sortOrder })`. */
  function SortKey(order: Option<string>, rank: Book -> int): Book -> int
  {
    (b: Book) => SortOrder(OrDefault(order, "desc")) * rank(b)
  }

  /** `getBooks`: `GET /api/books`, pages of 10, descending by default. */
  function GetBooks(books: seq<Book>, q: BookQuery, matches: (string, string) -> bool, rank: Book -> int): (r: Listing<Book>)
    ensures r.outcome.Forwarded? <==> PageSkip(OrDefault(q.page, 1), OrDefault(q.limit, 10)) < 0
    ensures r.outcome.Sent? ==> r.outcome == Sent(Listed) && r.total == |Where(books, Filter(q.filter, matches))|
    ensures SortedBy(r.items, SortKey(q.order, rank))
    ensures OrDefault(q.limit, 10) > 0 ==> |r.items| <= OrDefault(q.limit, 10)
    ensures q.limit.None? ==> |r.items| <= 10
    ensures PageSkip(OrDefault(q.page, 1), OrDefault(q.limit, 10)) >= 0 ==>
              r.items == Slice(Ordered(books, Filter(q.filter, matches), SortKey(q.order, rank)),
                               PageSkip(OrDefault(q.page, 1), OrDefault(q.limit, 10)), OrDefault(q.limit, 10))
  {
    List(books, Filter(q.filter, matches), SortKey(q.order, rank), OrDefault(q.page, 1), OrDefault(q.limit, 10))
  }

  /** Every book `getBooks` lists is a stored book its filter selects. */
  lemma GetBooksListsSelected(books: seq<Book>, q: BookQuery, matches: (string, string) -> bool, rank: Book -> int)
    ensures var r := GetBooks(books, q, matches, rank);
            forall i :: 0 <= i < |r.items| ==> r.items[i] in books && Selects(q.filter, matches, r.items[i])
  {
    var r := GetBooks(books, q, matches, rank);
    var p := Filter(q.filter, matches);
    forall i | 0 <= i < |r.items|
      ensures r.items[i] in books && Selects(q.filter, matches, r.items[i])
    {
      assert p(r.items[i]);
    }
  }

  /** Two listings with the same filter report the same `total`, whatever their pages, sizes or order. */
  lemma BookTotalIgnoresPaging(books: seq<Book>, q: BookQuery, q': BookQuery, matches: (string, string) -> bool, rank: Book -> int)
    requires q.filter == q'.filter
    requires GetBooks(books, q, matches, rank).outcome.Sent? && GetBooks(books, q', matches, rank).outcome.Sent?
    ensures GetBooks(books, q, matches, rank).total == GetBooks(books, q', matches, rank).total
  {
  }

  /** Page `page + 1` of `getBooks` continues where page `page` stops. */
  lemma BookPagesContinue(books: seq<Book>, q: BookQuery, page: int, limit: int, matches: (string, string) -> bool, rank: Book -> int)
    requires page >= 1 && limit > 0
    ensures GetBooks(books, q.(page := Some(page), limit := Some(limit)), matches, rank).items
            + GetBooks(books, q.(page := Some(page + 1), limit := Some(limit)), matches, rank).items
         == Slice(Ordered(books, Filter(q.filter, matches), SortKey(q.order, rank)), PageSkip(page, limit), 2 * limit)
  {
    NextPageContinues(books, Filter(q.filter, matches), SortKey(q.order, rank), page, limit);
  }

  // -------------------------------------------------------------- details

  /** The `data` of `getBookById`: the book, the live aggregate, the review count and one page of reviews. */
  datatype BookDetails = BookDetails(book: Book, averageRating: Option<real>, totalReviews: nat, reviews: seq<Review>)

  datatype Fetched = Fetched(outcome: Outcome, details: Option<BookDetails>)

  /** `getBookById`: `GET /api/books/:id`, newest reviews first, pages of 5 by default. */
  function GetBookById(db: Db, bookParam: string, page: Option<int>, limit: Option<int>): (r: Fetched)
    ensures r.outcome == Sent(InvalidBookId) <==> !ValidId(bookParam)
    ensures r.outcome == Sent(BookNotFound) <==> ValidId(bookParam) && FindBook(db.books, bookParam).None?
    ensures r.outcome == Sent(BookDetailsFetched) <==>
              ValidId(bookParam) && FindBook(db.books, bookParam).Some? && PageSkip(OrDefault(page, 1), OrDefault(limit, 5)) >= 0
    ensures r.outcome == Sent(BookDetailsFetched) <==> r.details.Some?
    ensures ValidId(bookParam) && FindBook(db.books, bookParam).Some? && PageSkip(OrDefault(page, 1), OrDefault(limit, 5)) < 0 ==>
              r.outcome == Forwarded(Raise(BadValue)) && r.details.None?
    ensures r.details.Some? ==>
              var d := r.details.value;
              var mine := Where(db.reviews, OnBook(bookParam));
              && Some(d.book) == FindBook(db.books, bookParam)
              && d.averageRating == AggregateOf(db.reviews, bookParam).averageRating
              && d.totalReviews == |mine|
              && (forall i :: 0 <= i < |d.reviews| ==> d.reviews[i] in db.reviews && d.reviews[i].bookId == bookParam)
              && (OrDefault(limit, 5) > 0 ==> |d.reviews| <= OrDefault(limit, 5))
              && d.reviews == Slice(Reverse(mine), PageSkip(OrDefault(page, 1), OrDefault(limit, 5)), OrDefault(limit, 5))
  {
    if !ValidId(bookParam) then Fetched(Sent(InvalidBookId), None)
    else match FindBook(db.books, bookParam)
      case None => Fetched(Sent(BookNotFound), None)
      case Some(b) =>
        var n := OrDefault(limit, 5);
        var skip := PageSkip(OrDefault(page, 1), n);
        if skip < 0 then Fetched(Forwarded(Raise(BadValue)), None)
        else
          var mine := Where(db.reviews, OnBook(bookParam));
          var newestFirst := Reverse(mine);
          var shown := Slice(newestFirst, skip, n);
          assert forall i :: 0 <= i < |shown| ==> shown[i] in mine;
          Fetched(Sent(BookDetailsFetched),
                  Some(BookDetails(b, AggregateOf(db.reviews, bookParam).averageRating, |mine|, shown)))
  }

  /** In a well-formed store the live figures of `getBookById` equal the book's stored fields. */
  lemma LiveAggregateMatchesStored(db: Db, bookParam: string, page: Option<int>, limit: Option<int>)
    requires Wellformed(db)
    ensures var r := GetBookById(db, bookParam, page, limit);
            r.details.Some? ==>
              r.details.value.averageRating == r.details.value.book.averageRating
              && r.details.value.totalReviews == r.details.value.book.reviewsCount
  {
    var r := GetBookById(db, bookParam, page, limit);
    if r.details.Some? {
      var k := FirstIndex(db.books, BookWithId(bookParam)).value;
      assert Agrees(db.books[k], AggregateOf(db.reviews, db.books[k].id));
      AggregateCount(db.reviews, bookParam);
    }
  }

  // --------------------------------------------------------------- delete

  function OwnedBy(id: Id, caller: Id): Book -> bool
  {
    (b: Book) => b.id == id && b.createdBy == caller
  }

  /**
   * `deleteBook`: `DELETE /api/books/:id`. There is no id check, so a
   * malformed id fails the cast inside `findOne` and reaches the error handler.
   */
  function DeleteBook(db: Db, bookParam: string, caller: Id): (r: BookStep)
    ensures !ValidId(bookParam) ==> r.outcome == Forwarded(Raise(CastError))
    ensures r.outcome == Sent(NotFoundOrForbidden) <==>
              ValidId(bookParam) && forall i :: 0 <= i < |db.books| ==> !OwnedBy(bookParam, caller)(db.books[i])
    ensures r.outcome == Sent(BookDeleted) <==>
              ValidId(bookParam) && exists i :: 0 <= i < |db.books| && OwnedBy(bookParam, caller)(db.books[i])
    ensures r.outcome != Sent(BookDeleted) ==> r.db == db
    ensures r.outcome == Sent(BookDeleted) ==>
              && r.db.users == db.users
              && r.db.reviews == Where(db.reviews, OffBook(bookParam))
              && exists k :: 0 <= k < |db.books| && db.books[k].id == bookParam && r.db.books == RemoveAt(db.books, k)
  {
    if !ValidId(bookParam) then BookStep(Forwarded(Raise(CastError)), None, db)
    else match FirstIndex(db.books, OwnedBy(bookParam, caller))
      case None => BookStep(Sent(NotFoundOrForbidden), None, db)
      case Some(owned) =>
        assert BookWithId(bookParam)(db.books[owned]);
        var k := FirstIndex(db.books, BookWithId(bookParam)).value;
        match CascadeBookDelete(db.reviews, Some(bookParam))
        case Err(e) => BookStep(Forwarded(e), None, db)
        case Ok(reviews') =>
          BookStep(Sent(BookDeleted), None, Db(RemoveAt(db.books, k), reviews', db.users))
  }

  /** A book created by someone else answers exactly as a book that does not exist. */
  lemma NotOwnerLooksMissing(db: Db, bookParam: string, caller: Id, k: nat)
    requires UniqueBy(db.books, BookKey)
    requires k < |db.books| && db.books[k].id == bookParam && db.books[k].createdBy != caller
    ensures DeleteBook(db, bookParam, caller) == DeleteBook(db.(books := RemoveAt(db.books, k)), bookParam, caller).(db := db)
  {
    var gone := RemoveAt(db.books, k);
    forall i | 0 <= i < |db.books|
      ensures !OwnedBy(bookParam, caller)(db.books[i])
    {
      if i != k {
        assert BookKey(db.books[i]) != BookKey(db.books[k]);
      }
    }
    forall i | 0 <= i < |gone|
      ensures !OwnedBy(bookParam, caller)(gone[i])
    {
      assert gone[i] == db.books[if i < k then i else i + 1];
    }
  }

  /** Removing book `k` and every review of it leaves the other books consistent with the reviews that stay. */
  lemma RemovedBookLeavesOthersConsistent(db: Db, k: nat)
    requires Wellformed(db) && k < |db.books|
    ensures var books' := RemoveAt(db.books, k);
            && (forall i :: 0 <= i < |books'| ==> books'[i].id != db.books[k].id)
            && Consistent(books', Where(db.reviews, OffBook(db.books[k].id)))
  {
    var bookId := db.books[k].id;
    var books' := RemoveAt(db.books, k);
    var reviews' := Where(db.reviews, OffBook(bookId));
    forall i | 0 <= i < |books'|
      ensures books'[i].id != bookId && Agrees(books'[i], AggregateOf(reviews', books'[i].id))
    {
      var j := if i < k then i else i + 1;
      assert books'[i] == db.books[j];
      assert BookKey(db.books[j]) != BookKey(db.books[k]);
      RatingsOfOffBook(db.reviews, bookId, books'[i].id);
    }
  }

  /** Deleting a book keeps the store well formed and leaves neither the book nor any of its reviews. */
  lemma DeleteBookPreserves(db: Db, bookParam: string, caller: Id)
    requires Wellformed(db)
    ensures var r := DeleteBook(db, bookParam, caller);
            && Wellformed(r.db)
            && (r.outcome == Sent(BookDeleted) ==>
                  && (forall i :: 0 <= i < |r.db.reviews| ==> r.db.reviews[i].bookId != bookParam)
                  && (forall i :: 0 <= i < |r.db.books| ==> r.db.books[i].id != bookParam))
  {
    var r := DeleteBook(db, bookParam, caller);
    if r.outcome == Sent(BookDeleted) {
      var k := FirstIndex(db.books, BookWithId(bookParam)).value;
      assert r.db == Db(RemoveAt(db.books, k), Where(db.reviews, OffBook(bookParam)), db.users);
      UniqueByRemoveAt(db.books, k, BookKey);
      UniqueByWhere(db.reviews, OffBook(bookParam), ReviewKey);
      UniqueByWhere(db.reviews, OffBook(bookParam), ReviewPair);
      RemovedBookLeavesOthersConsistent(db, k);
    }
  }
}

=== FILE: collections.dfy ===
/**
 * A MongoDB collection seen as a sequence of documents in natural (insertion)
 * order, and the cursor operations the service uses on it: find-first,
 * filter, sort by one field, skip and limit.
 */
module Collections {
  import opened Core

  /** Index of the first document satisfying `p`, as `findOne` scans the collection. */
  function FirstIndex<T>(s: seq<T>, p: T -> bool): (r: Option<nat>)
    ensures r.Some? ==> r.value < |s| && p(s[r.value]) && forall j :: 0 <= j < r.value ==> !p(s[j])
    ensures r.None? <==> forall j :: 0 <= j < |s| ==> !p(s[j])
  {
    if |s| == 0 then None
    else if p(s[0]) then Some(0)
    else match FirstIndex(s[1..], p)
      case None => None
      case Some(k) => Some(k + 1)
  }

  /** Two collections that `p` sees alike give the same first match. */
  lemma {:induction false} FirstIndexAgrees<T>(s: seq<T>, t: seq<T>, p: T -> bool)
    requires |s| == |t|
    requires forall m :: 0 <= m < |s| ==> (p(s[m]) <==> p(t[m]))
    ensures FirstIndex(s, p) == FirstIndex(t, p)
  {
    if |s| > 0 {
      FirstIndexAgrees(s[1..], t[1..], p);
    }
  }

  /** The documents satisfying `p`, in collection order (`find(query)` before sorting). */
  function Where<T>(s: seq<T>, p: T -> bool): (r: seq<T>)
    ensures |r| <= |s|
    ensures forall i :: 0 <= i < |r| ==> r[i] in s && p(r[i])
    ensures forall i :: 0 <= i < |s| && p(s[i]) ==> s[i] in r
  {
    if |s| == 0 then []
    else if p(s[0]) then [s[0]] + Where(s[1..], p)
    else Where(s[1..], p)
  }

  /** Filtering keeps every matching document as often as it occurs, and no other. */
  lemma {:induction false} WhereCounts<T>(s: seq<T>, p: T -> bool, x: T)
    ensures multiset(Where(s, p))[x] == if p(x) then multiset(s)[x] else 0
  {
    if |s| > 0 {
      WhereCounts(s[1..], p, x);
      assert s == [s[0]] + s[1..];
    }
  }

  /** Filtering keeps the collection's order: the filter of a concatenation is the concatenation of the filters. */
  lemma {:induction false} WhereConcat<T>(a: seq<T>, b: seq<T>, p: T -> bool)
    ensures Where(a + b, p) == Where(a, p) + Where(b, p)
  {
    if |a| > 0 {
      assert (a + b)[1..] == a[1..] + b;
      WhereConcat(a[1..], b, p);
    } else {
      assert a + b == b;
    }
  }

  /** A filter that keeps everything changes nothing. */
  lemma {:induction false} WhereAll<T>(s: seq<T>, p: T -> bool)
    requires forall i :: 0 <= i < |s| ==> p(s[i])
    ensures Where(s, p) == s
  {
    if |s| > 0 {
      WhereAll(s[1..], p);
    }
  }

  /** No two documents share a key: what a unique index enforces. */
  predicate UniqueBy<T, K(==)>(s: seq<T>, key: T -> K)
  {
    forall i, j :: 0 <= i < j < |s| ==> key(s[i]) != key(s[j])
  }

  /** Inserting a document whose key is new keeps the index unique. */
  lemma UniqueByAppend<T, K>(s: seq<T>, x: T, key: T -> K)
    requires UniqueBy(s, key)
    requires forall i :: 0 <= i < |s| ==> key(s[i]) != key(x)
    ensures UniqueBy(s + [x], key)
  {
    var t := s + [x];
    forall i, j | 0 <= i < j < |t|
      ensures key(t[i]) != key(t[j])
    {
      if j < |s| {
        assert t[i] == s[i] && t[j] == s[j];
      } else {
        assert t[i] == s[i] && t[j] == x;
      }
    }
  }

  /** Replacing one document by another with the same key keeps the index unique. */
  lemma UniqueByReplace<T, K>(s: seq<T>, k: nat, x: T, key: T -> K)
    requires k < |s| && UniqueBy(s, key) && key(x) == key(s[k])
    ensures UniqueBy(s[k := x], key)
  {
    var t := s[k := x];
    forall i, j | 0 <= i < j < |t|
      ensures key(t[i]) != key(t[j])
    {
      assert key(t[i]) == key(s[i]) && key(t[j]) == key(s[j]);
    }
  }

  /** The collection with the document at position `k` deleted. */
  function RemoveAt<T>(s: seq<T>, k: nat): (r: seq<T>)
    requires k < |s|
    ensures |r| == |s| - 1
    ensures forall i :: 0 <= i < k ==> r[i] == s[i]
    ensures forall i :: k <= i < |r| ==> r[i] == s[i + 1]
  {
    s[..k] + s[k + 1..]
  }

  /** Uniqueness depends on the keys alone: a sequence with the same keys position by position is unique too. */
  lemma UniqueBySameKeys<T, K>(s: seq<T>, t: seq<T>, key: T -> K)
    requires UniqueBy(s, key) && |s| == |t|
    requires forall i :: 0 <= i < |s| ==> key(t[i]) == key(s[i])
    ensures UniqueBy(t, key)
  {
  }

  lemma UniqueByRemoveAt<T, K>(s: seq<T>, k: nat, key: T -> K)
    requires k < |s| && UniqueBy(s, key)
    ensures UniqueBy(RemoveAt(s, k), key)
  {
    var t := RemoveAt(s, k);
    forall i, j | 0 <= i < j < |t|
      ensures key(t[i]) != key(t[j])
    {
      var i' := if i < k then i else i + 1;
      var j' := if j < k then j else j + 1;
      assert t[i] == s[i'] && t[j] == s[j'] && i' < j';
    }
  }

  lemma {:induction false} UniqueByWhere<T, K>(s: seq<T>, p: T -> bool, key: T -> K)
    requires UniqueBy(s, key)
    ensures UniqueBy(Where(s, p), key)
  {
    if |s| > 0 {
      var tail := s[1..];
      assert UniqueBy(tail, key) by {
        forall i, j | 0 <= i < j < |tail|
          ensures key(tail[i]) != key(tail[j])
        {
          assert tail[i] == s[i + 1] && tail[j] == s[j + 1];
        }
      }
      UniqueByWhere(tail, p, key);
      if p(s[0]) {
        var w := Where(tail, p);
        var t := [s[0]] + w;
        forall i, j | 0 <= i < j < |t|
          ensures key(t[i]) != key(t[j])
        {
          if i == 0 {
            assert t[j] == w[j - 1];
            assert w[j - 1] in tail;
            var m :| 0 <= m < |tail| && tail[m] == w[j - 1];
            assert tail[m] == s[m + 1];
          } else {
            assert t[i] == w[i - 1] && t[j] == w[j - 1];
          }
        }
      }
    }
  }

  /** `s` is in non-decreasing order of `key`. */
  predicate SortedBy<T>(s: seq<T>, key: T -> int)
  {
    forall i, j :: 0 <= i < j < |s| ==> key(s[i]) <= key(s[j])
  }

  /** A lower bound on every element of `t` and on `x` bounds every element of a sequence holding exactly those. */
  lemma BoundedByMultiset<T>(r: seq<T>, t: seq<T>, x: T, key: T -> int, lo: int)
    requires multiset(r) == multiset(t) + multiset{x}
    requires lo <= key(x)
    requires forall i :: 0 <= i < |t| ==> lo <= key(t[i])
    ensures forall i :: 0 <= i < |r| ==> lo <= key(r[i])
  {
    forall i | 0 <= i < |r|
      ensures lo <= key(r[i])
    {
      assert r[i] in multiset(r);
      if r[i] != x {
        assert r[i] in multiset(t);
        var m :| 0 <= m < |t| && t[m] == r[i];
      }
    }
  }

  function Insert<T>(x: T, s: seq<T>, key: T -> int): (r: seq<T>)
    requires SortedBy(s, key)
    ensures SortedBy(r, key)
    ensures multiset(r) == multiset(s) + multiset{x}
  {
    if |s| == 0 then [x]
    else if key(x) <= key(s[0]) then [x] + s
    else
      var tail := s[1..];
      var rest := Insert(x, tail, key);
      assert s == [s[0]] + tail;
      assert forall i :: 0 <= i < |tail| ==> key(s[0]) <= key(tail[i]) by {
        forall i | 0 <= i < |tail|
          ensures key(s[0]) <= key(tail[i])
        {
          assert tail[i] == s[i + 1];
        }
      }
      BoundedByMultiset(rest, tail, x, key, key(s[0]));
      [s[0]] + rest
  }

  /** `sort({ field: 1 })` on the collection, the field's order given by `key`. */
  function SortBy<T>(s: seq<T>, key: T -> int): (r: seq<T>)
    ensures SortedBy(r, key)
    ensures multiset(r) == multiset(s)
  {
    if |s| == 0 then []
    else
      assert s == [s[0]] + s[1..];
      Insert(s[0], SortBy(s[1..], key), key)
  }

  function Min(a: int, b: int): int
  {
    if a <= b then a else b
  }

  /** How many documents a non-zero `limit` lets through. */
  function Magnitude(limit: int): nat
  {
    if limit < 0 then -limit else limit
  }

  /**
   * `skip(skip).limit(limit)` on a cursor: a contiguous window starting `skip`
   * documents in. As in MongoDB, a limit of 0 means no limit and a negative
   * limit returns at most its absolute value.
   */
  function Slice<T>(s: seq<T>, skip: nat, limit: int): (r: seq<T>)
    ensures Min(skip, |s|) + |r| <= |s|
    ensures r == s[Min(skip, |s|)..Min(skip, |s|) + |r|]
    ensures limit == 0 ==> |r| == |s| - Min(skip, |s|)
    ensures limit != 0 ==> |r| == Min(Magnitude(limit), |s| - Min(skip, |s|))
  {
    var from := Min(skip, |s|);
    var to := if limit == 0 then |s| else from + Min(Magnitude(limit), |s| - from);
    s[from..to]
  }

  /** Two consecutive pages of the same size are the double-size page. */
  lemma SliceAdjacent<T>(s: seq<T>, skip: nat, limit: nat)
    requires limit > 0
    ensures Slice(s, skip, limit) + Slice(s, skip + limit, limit) == Slice(s, skip, 2 * limit)
  {
  }

  /** A window of a sorted sequence is sorted, and keeps any property all its elements have. */
  lemma SliceFacts<T>(s: seq<T>, skip: nat, limit: int, key: T -> int, p: T -> bool)
    requires SortedBy(s, key)
    requires forall i :: 0 <= i < |s| ==> p(s[i])
    ensures SortedBy(Slice(s, skip, limit), key)
    ensures forall i :: 0 <= i < |Slice(s, skip, limit)| ==> p(Slice(s, skip, limit)[i])
  {
    var from := Min(skip, |s|);
    var w := Slice(s, skip, limit);
    forall i, j | 0 <= i < j < |w|
      ensures key(w[i]) <= key(w[j])
    {
      assert w[i] == s[from + i] && w[j] == s[from + j];
    }
    forall i | 0 <= i < |w|
      ensures p(w[i])
    {
      assert w[i] == s[from + i];
    }
  }

  /** A permutation keeps the membership and the property of every element. */
  lemma MembersOfSorted<T>(matched: seq<T>, sorted: seq<T>, p: T -> bool, all: seq<T>)
    requires forall i :: 0 <= i < |matched| ==> matched[i] in all && p(matched[i])
    requires multiset(sorted) == multiset(matched)
    ensures forall i :: 0 <= i < |sorted| ==> sorted[i] in all && p(sorted[i])
  {
    forall i | 0 <= i < |sorted|
      ensures sorted[i] in all && p(sorted[i])
    {
      assert sorted[i] in multiset(sorted);
      assert sorted[i] in multiset(matched);
      var j :| 0 <= j < |matched| && matched[j] == sorted[i];
    }
  }

  /** The collection in reverse order. */
  function Reverse<T>(s: seq<T>): (r: seq<T>)
    ensures |r| == |s|
    ensures forall i :: 0 <= i < |s| ==> r[i] == s[|s| - 1 - i]
  {
    seq(|s|, i requires 0 <= i < |s| => s[|s| - 1 - i])
  }
}

=== FILE: core.dfy ===
/** Shared vocabulary: optional values and document identifiers. */
module Core {

  /** A value that may be missing: JavaScript's `undefined`/`null` on one side, a value on the other. */
  datatype Option<+T> = None | Some(value: T)

  /** A document identifier as it travels in URLs and tokens: the text of an ObjectId. */
  type Id = string

  predicate IsHexDigit(c: char)
  {
    ('0' <= c <= '9') || ('a' <= c <= 'f') || ('A' <= c <= 'F')
  }

  /** `mongoose.Types.ObjectId.isValid` on a string, restricted to its 24-hex-digit form. */
  predicate ValidId(s: string)
  {
    |s| == 24 && forall i :: 0 <= i < |s| ==> IsHexDigit(s[i])
  }

  /**
   * The check accepts 24 hex digits in either case, so one ObjectId has two
   * spellings that both pass it; it rejects 23 digits and a non-hex digit.
   */
  lemma ValidIdExamples()
    ensures ValidId("65f0a1b2c3d4e5f6a7b8c9d0") && ValidId("65F0A1B2C3D4E5F6A7B8C9D0")
    ensures "65f0a1b2c3d4e5f6a7b8c9d0" != "65F0A1B2C3D4E5F6A7B8C9D0"
    ensures !ValidId("65f0a1b2c3d4e5f6a7b8c9d") && !ValidId("65f0a1b2c3d4e5f6a7b8c9dz")
  {
    var z := "65f0a1b2c3d4e5f6a7b8c9dz";
    assert !IsHexDigit(z[23]);
    assert "65f0a1b2c3d4e5f6a7b8c9d0"[2] != "65F0A1B2C3D4E5F6A7B8C9D0"[2];
  }
}

=== FILE: integrity.dfy ===
/**
 * The integrity the review store keeps between requests: unique ids, one
 * review per (book, user), and every book's stored aggregate equal to the
 * aggregate of its current reviews.
 */
module Integrity {
  import opened Core
  import opened JsString
  import opened Collections
  import opened Schema
  import opened Ratings
  import opened ReviewHooks

  /** Stored users: unique ids and emails, the only role "User", emails through the setters. */
  ghost predicate UsersWellformed(users: seq<User>)
  {
    && UniqueBy(users, UserKey)
    && UniqueBy(users, UserEmail)
    && (forall i :: 0 <= i < |users| ==> users[i].role == UserRole && EmailSetters(users[i].email) == users[i].email)
  }

  ghost predicate Wellformed(db: Db)
  {
    && UniqueBy(db.books, BookKey)
    && UniqueBy(db.reviews, ReviewKey)
    && UniqueBy(db.reviews, ReviewPair)
    && (forall i :: 0 <= i < |db.reviews| ==> ValidId(db.reviews[i].bookId))
    && Consistent(db.books, db.reviews)
    && UsersWellformed(db.users)
  }

  /** An ObjectId the database has not handed out: no document has it and no review refers to it. */
  ghost predicate Unused(db: Db, id: Id)
  {
    && ValidId(id)
    && (forall i :: 0 <= i < |db.books| ==> db.books[i].id != id)
    && (forall i :: 0 <= i < |db.reviews| ==> db.reviews[i].id != id && db.reviews[i].bookId != id)
    && (forall i :: 0 <= i < |db.users| ==> db.users[i].id != id)
  }

  /** Removing one user keeps ids and emails unique and the rest of the users as they were. */
  lemma UsersWellformedRemoveAt(users: seq<User>, k: nat)
    requires k < |users| && UsersWellformed(users)
    ensures UsersWellformed(RemoveAt(users, k))
    ensures forall i :: 0 <= i < |RemoveAt(users, k)| ==> RemoveAt(users, k)[i].id != users[k].id
  {
    var r := RemoveAt(users, k);
    UniqueByRemoveAt(users, k, UserKey);
    UniqueByRemoveAt(users, k, UserEmail);
    forall i | 0 <= i < |r|
      ensures r[i].role == UserRole && EmailSetters(r[i].email) == r[i].email
      ensures r[i].id != users[k].id
    {
      var j := if i < k then i else i + 1;
      assert r[i] == users[j];
      assert UserKey(users[j]) != UserKey(users[k]);
    }
  }

  /** A new user with a fresh id, a free email in stored form and the only role keeps the users well formed. */
  lemma UsersWellformedAppend(users: seq<User>, u: User)
    requires UsersWellformed(users)
    requires forall i :: 0 <= i < |users| ==> users[i].id != u.id && users[i].email != u.email
    requires u.role == UserRole && EmailSetters(u.email) == u.email
    ensures UsersWellformed(users + [u])
  {
    UniqueByAppend(users, u, UserKey);
    UniqueByAppend(users, u, UserEmail);
    var r := users + [u];
    forall i | 0 <= i < |r|
      ensures r[i].role == UserRole && EmailSetters(r[i].email) == r[i].email
    {
      if i < |users| {
        assert r[i] == users[i];
      }
    }
  }

  lemma EmptyWellformed()
    ensures Wellformed(Db([], [], []))
  {
  }

  /**
   * A review write that touched only reviews of book `bookId`, followed by the
   * hook that recalculates `bookId`, leaves every book consistent.
   */
  lemma HookRestoresConsistency(db: Db, reviews': seq<Review>, doc: Review)
    requires Wellformed(db) && ValidId(doc.bookId)
    requires forall c :: c != doc.bookId ==> RatingsOf(reviews', c) == RatingsOf(db.reviews, c)
    ensures Consistent(RecalcHook(db.(reviews := reviews'), Some(doc), false).books, reviews')
  {
    RecalcRestores(db.books, db.reviews, reviews', doc.bookId);
  }

  /**
   * A review write that keeps ids and pairs unique, names only well-formed
   * books and touches only book `doc.bookId`'s ratings, followed by the hook
   * for `doc`, keeps the store well formed.
   */
  lemma ReviewWritePreserves(db: Db, reviews': seq<Review>, doc: Review)
    requires Wellformed(db) && ValidId(doc.bookId)
    requires UniqueBy(reviews', ReviewKey) && UniqueBy(reviews', ReviewPair)
    requires forall i :: 0 <= i < |reviews'| ==> ValidId(reviews'[i].bookId)
    requires forall c :: c != doc.bookId ==> RatingsOf(reviews', c) == RatingsOf(db.reviews, c)
    ensures Wellformed(RecalcHook(db.(reviews := reviews'), Some(doc), false))
  {
    HookRestoresConsistency(db, reviews', doc);
    var r := RecalcHook(db.(reviews := reviews'), Some(doc), false);
    assert r.reviews == reviews' && r.users == db.users;
    UniqueBySameKeys(db.books, r.books, BookKey);
  }
}

=== FILE: js_string.dfy ===
/**
 * The JavaScript string built-ins the service relies on: `trim`, `toLowerCase`,
 * `indexOf`/`lastIndexOf`, `substring`, `split`, and the decimal rendering of
 * a non-negative integer (`String(n)`).
 */
module JsString {

  /** ECMAScript WhiteSpace and LineTerminator code points: what `trim` removes and what `\s` matches. */
  predicate IsSpace(c: char)
  {
    || c == '\t' || c == '\n' || c == '\U{000B}' || c == '\U{000C}' || c == '\r' || c == ' '
    || c == '\U{00A0}' || c == '\U{1680}' || ('\U{2000}' <= c <= '\U{200A}')
    || c == '\U{2028}' || c == '\U{2029}' || c == '\U{202F}' || c == '\U{205F}'
    || c == '\U{3000}' || c == '\U{FEFF}'
  }

  /** Drops the leading white space. */
  function TrimStart(s: string): (r: string)
    ensures |r| <= |s| && r == s[|s| - |r|..]
    ensures forall k :: 0 <= k < |s| - |r| ==> IsSpace(s[k])
    ensures |r| > 0 ==> !IsSpace(r[0])
  {
    if |s| > 0 && IsSpace(s[0]) then
      var t := TrimStart(s[1..]);
      assert s[1..][|s| - 1 - |t|..] == s[|s| - |t|..];
      assert forall k :: 1 <= k < |s| - |t| ==> s[k] == s[1..][k - 1];
      t
    else s
  }

  /** Drops the trailing white space. */
  function TrimEnd(s: string): (r: string)
    ensures |r| <= |s| && r == s[..|r|]
    ensures forall k :: |r| <= k < |s| ==> IsSpace(s[k])
    ensures |r| > 0 ==> !IsSpace(r[|r| - 1])
  {
    if |s| > 0 && IsSpace(s[|s| - 1]) then
      var t := TrimEnd(s[..|s| - 1]);
      assert s[..|s| - 1][..|t|] == s[..|t|];
      assert forall k :: |t| <= k < |s| - 1 ==> s[k] == s[..|s| - 1][k];
      t
    else s
  }

  /** `TrimStart` removes exactly a run of white space in front of text that does not start with any. */
  lemma {:induction false} TrimStartSkips(ws: string, t: string)
    requires forall k :: 0 <= k < |ws| ==> IsSpace(ws[k])
    requires |t| == 0 || !IsSpace(t[0])
    ensures TrimStart(ws + t) == t
  {
    if |ws| > 0 {
      assert (ws + t)[1..] == ws[1..] + t;
      TrimStartSkips(ws[1..], t);
    } else {
      assert ws + t == t;
    }
  }

  /**
   * Removing a run of `p`-characters from the front and then from the back of
   * what is left keeps an infix, with only `p`-characters on either side.
   */
  lemma InfixBetween(s: string, u: string, r: string, p: char -> bool)
    requires |u| <= |s| && u == s[|s| - |u|..] && forall k :: 0 <= k < |s| - |u| ==> p(s[k])
    requires |r| <= |u| && r == u[..|r|] && forall k :: |r| <= k < |u| ==> p(u[k])
    ensures var lead := |s| - |u|;
            && r == s[lead..lead + |r|]
            && (forall k :: 0 <= k < lead ==> p(s[k]))
            && (forall k :: lead + |r| <= k < |s| ==> p(s[k]))
  {
    var lead := |s| - |u|;
    assert forall i :: 0 <= i < |r| ==> r[i] == u[i] == s[lead + i];
    forall k | lead + |r| <= k < |s|
      ensures p(s[k])
    {
      assert s[k] == u[k - lead];
    }
  }

  /** `String.prototype.trim`. */
  function Trim(s: string): (r: string)
  {
    TrimEnd(TrimStart(s))
  }

  /** What `trim` keeps is a prefix of what follows the leading white space. */
  lemma TrimKeepsInfix(s: string)
    ensures var lead := |s| - |TrimStart(s)|;
            var r := Trim(s);
            && lead + |r| <= |s|
            && r == s[lead..][..|r|]
  {
  }

  /** What `trim` removes, on either side of what it keeps, is white space. */
  lemma TrimDropsOnlySpace(s: string)
    ensures var lead := |s| - |TrimStart(s)|;
            var r := Trim(s);
            && lead + |r| <= |s|
            && (forall k :: 0 <= k < lead ==> IsSpace(s[k]))
            && (forall k :: lead + |r| <= k < |s| ==> IsSpace(s[k]))
  {
    var u := TrimStart(s);
    InfixBetween(s, u, TrimEnd(u), IsSpace);
  }

  /** `trim` keeps an infix of its argument and removes only white space around it. */
  lemma TrimIsInfix(s: string)
    ensures var lead := |s| - |TrimStart(s)|;
            var r := Trim(s);
            && lead + |r| <= |s|
            && r == s[lead..][..|r|]
            && (forall k :: 0 <= k < lead ==> IsSpace(s[k]))
            && (forall k :: lead + |r| <= k < |s| ==> IsSpace(s[k]))
  {
    TrimKeepsInfix(s);
    TrimDropsOnlySpace(s);
  }

  /** A string `trim` leaves alone: empty, or neither end is white space. */
  predicate Trimmed(s: string)
  {
    |s| == 0 || (!IsSpace(s[0]) && !IsSpace(s[|s| - 1]))
  }

  /** `trim` yields a trimmed string, and leaves a trimmed string unchanged. */
  lemma TrimTrims(s: string)
    ensures Trimmed(Trim(s))
    ensures Trimmed(s) ==> Trim(s) == s
  {
    var u := TrimStart(s);
    var r := TrimEnd(u);
    if |r| > 0 {
      assert r[0] == u[0];
    }
  }

  lemma TrimIdempotent(s: string)
    ensures Trim(Trim(s)) == Trim(s)
  {
    TrimTrims(s);
    TrimTrims(Trim(s));
  }

  /** The ASCII upper-case letters; other scripts' case mappings are not modelled. */
  predicate IsUpper(c: char)
  {
    'A' <= c <= 'Z'
  }

  /** One character lower-cased: an upper-case letter moves to its lower-case partner, all else stays. */
  function LowerChar(c: char): (d: char)
  {
    if IsUpper(c) then (c as int + 32) as char else c
  }

  /** `String.prototype.toLowerCase` on the ASCII letters. */
  function ToLower(s: string): (r: string)
    ensures |r| == |s|
    ensures forall i :: 0 <= i < |s| ==> r[i] == LowerChar(s[i])
  {
    seq(|s|, i requires 0 <= i < |s| => LowerChar(s[i]))
  }

  lemma LowerCharFacts(c: char)
    ensures !IsUpper(LowerChar(c))
    ensures LowerChar(c) == c <==> !IsUpper(c)
    ensures IsUpper(c) ==> 'a' <= LowerChar(c) <= 'z' && LowerChar(c) as int - c as int == 'a' as int - 'A' as int
    ensures LowerChar(LowerChar(c)) == LowerChar(c)
    ensures IsSpace(LowerChar(c)) == IsSpace(c)
  {
  }

  /** A lower-cased string has no upper-case letter, and differs from its argument exactly at the upper-case letters. */
  lemma ToLowerFacts(s: string)
    ensures forall i :: 0 <= i < |s| ==> !IsUpper(ToLower(s)[i])
    ensures forall i :: 0 <= i < |s| ==> (ToLower(s)[i] == s[i] <==> !IsUpper(s[i]))
  {
    forall i | 0 <= i < |s|
      ensures !IsUpper(ToLower(s)[i]) && (ToLower(s)[i] == s[i] <==> !IsUpper(s[i]))
    {
      LowerCharFacts(s[i]);
    }
  }

  /** Lower-casing a string lower-cases its first character and the rest separately. */
  lemma ToLowerSplits(s: string)
    requires |s| > 0
    ensures ToLower(s) == [LowerChar(s[0])] + ToLower(s[1..])
    ensures ToLower(s) == ToLower(s[..|s| - 1]) + [LowerChar(s[|s| - 1])]
  {
  }

  /** Lower-casing never touches white space, so it commutes with trimming. */
  lemma {:induction false} TrimStartToLower(s: string)
    ensures TrimStart(ToLower(s)) == ToLower(TrimStart(s))
  {
    if |s| > 0 {
      var c := LowerChar(s[0]);
      LowerCharFacts(s[0]);
      ToLowerSplits(s);
      var l := [c] + ToLower(s[1..]);
      assert l[1..] == ToLower(s[1..]);
      if IsSpace(s[0]) {
        TrimStartToLower(s[1..]);
      }
    }
  }

  lemma {:induction false} TrimEndToLower(s: string)
    ensures TrimEnd(ToLower(s)) == ToLower(TrimEnd(s))
  {
    if |s| > 0 {
      LowerCharFacts(s[|s| - 1]);
      assert ToLower(s)[..|s| - 1] == ToLower(s[..|s| - 1]);
      if IsSpace(s[|s| - 1]) {
        TrimEndToLower(s[..|s| - 1]);
      }
    }
  }

  lemma TrimToLower(s: string)
    ensures Trim(ToLower(s)) == ToLower(Trim(s))
  {
    TrimStartToLower(s);
    TrimEndToLower(TrimStart(s));
  }

  lemma ToLowerIdempotent(s: string)
    ensures ToLower(ToLower(s)) == ToLower(s)
    ensures forall i :: 0 <= i < |s| ==> !IsUpper(ToLower(s)[i])
  {
    forall i | 0 <= i < |s|
      ensures ToLower(ToLower(s))[i] == ToLower(s)[i] && !IsUpper(ToLower(s)[i])
    {
      LowerCharFacts(s[i]);
    }
  }

  /** Position of the first `c` in `s`, or -1: `String.prototype.indexOf` for one character. */
  function IndexOf(s: string, c: char): (r: int)
    ensures -1 <= r < |s|
    ensures r == -1 <==> c !in s
    ensures r >= 0 ==> s[r] == c && c !in s[..r]
  {
    if |s| == 0 then -1
    else if s[0] == c then 0
    else
      var k := IndexOf(s[1..], c);
      assert s[1..][..k + 1] == s[1..k + 2] by { }
      if k == -1 then -1 else k + 1
  }

  /** Position of the last `c` in `s`, or -1: `String.prototype.lastIndexOf` for one character. */
  function LastIndexOf(s: string, c: char): (r: int)
    ensures -1 <= r < |s|
    ensures r == -1 <==> c !in s
    ensures r >= 0 ==> s[r] == c
    ensures forall j :: r < j < |s| ==> s[j] != c
  {
    if |s| == 0 then -1
    else if s[|s| - 1] == c then |s| - 1
    else
      var k := LastIndexOf(s[..|s| - 1], c);
      assert s == s[..|s| - 1] + [s[|s| - 1]];
      k
  }

  /** An argument of `substring` clamped into `[0, length]` (NaN is not modelled). */
  function Clamp(x: int, n: nat): (r: nat)
    ensures r <= n
  {
    if x < 0 then 0 else if x > n then n else x
  }

  /** `String.prototype.substring(start, end)`: both ends clamped, swapped when reversed. */
  function Substring(s: string, start: int, end: int): (r: string)
    ensures |r| <= |s|
    ensures 0 <= start <= end <= |s| ==> r == s[start..end]
    ensures 0 <= end <= start <= |s| ==> r == s[end..start]
    ensures start <= 0 && end <= 0 ==> r == ""
    ensures start >= |s| && end >= |s| ==> r == ""
    ensures 0 <= start <= |s| <= end ==> r == s[start..]
    ensures 0 <= end <= |s| <= start ==> r == s[end..]
    ensures start <= 0 <= end <= |s| ==> r == s[..end]
    ensures end <= 0 <= start <= |s| ==> r == s[..start]
    ensures (start <= 0 && end >= |s|) || (end <= 0 && start >= |s|) ==> r == s
  {
    var a := Clamp(start, |s|);
    var b := Clamp(end, |s|);
    if a <= b then s[a..b] else s[b..a]
  }

  /** The two ends of `substring` may be given in either order. */
  lemma SubstringSwaps(s: string, start: int, end: int)
    ensures Substring(s, start, end) == Substring(s, end, start)
  {
  }

  /** The one-argument `substring(start)`, whose end defaults to the length. */
  function SubstringFrom(s: string, start: int): string
  {
    Substring(s, start, |s|)
  }

  /** `s.split(d)` for a one-character separator. */
  function Split(s: string, d: char): (parts: seq<string>)
    ensures |parts| >= 1
    ensures forall k :: 0 <= k < |parts| ==> d !in parts[k]
    decreases |s|
  {
    var i := IndexOf(s, d);
    if i == -1 then [s] else [s[..i]] + Split(s[i + 1..], d)
  }

  /** `parts.join(d)`. */
  function Join(parts: seq<string>, d: char): string
  {
    if |parts| == 0 then ""
    else if |parts| == 1 then parts[0]
    else parts[0] + [d] + Join(parts[1..], d)
  }

  /** Splitting then joining on the same separator gives back the original text. */
  lemma {:induction false} JoinSplit(s: string, d: char)
    ensures Join(Split(s, d), d) == s
    decreases |s|
  {
    var i := IndexOf(s, d);
    if i != -1 {
      var rest := Split(s[i + 1..], d);
      JoinSplit(s[i + 1..], d);
      var parts := Split(s, d);
      assert parts == [s[..i]] + rest;
      assert |parts| >= 2 && parts[0] == s[..i] && parts[1..] == rest;
      assert Join(parts, d) == s[..i] + [d] + Join(rest, d);
      assert s == s[..i] + [d] + s[i + 1..];
    }
  }

  /** A separator-free head is split off as the first piece. */
  lemma SplitCons(a: string, b: string, d: char)
    requires d !in a
    ensures Split(a + [d] + b, d) == [a] + Split(b, d)
  {
    var s := a + [d] + b;
    var i := IndexOf(s, d);
    assert s[|a|] == d;
    assert s[..|a|] == a;
    assert i == |a|;
    assert s[i + 1..] == b;
  }

  predicate IsDigit(c: char)
  {
    '0' <= c <= '9'
  }

  function DigitChar(d: nat): (c: char)
    requires d < 10
    ensures IsDigit(c)
  {
    ('0' as int + d) as char
  }

  function DigitValue(c: char): (d: nat)
    requires IsDigit(c)
    ensures d < 10 && DigitChar(d) == c
  {
    c as int - '0' as int
  }

  /** `String(n)` for a non-negative integer: its decimal digits, no leading zeros. */
  function Decimal(n: nat): (s: string)
    ensures |s| >= 1
    ensures forall i :: 0 <= i < |s| ==> IsDigit(s[i])
    ensures |s| > 1 ==> s[0] != '0'
  {
    if n < 10 then [DigitChar(n)] else Decimal(n / 10) + [DigitChar(n % 10)]
  }

  /** Reads a string of decimal digits back as a number (the inverse of `Decimal`). */
  function ParseDecimal(s: string): nat
    requires forall i :: 0 <= i < |s| ==> IsDigit(s[i])
  {
    if |s| == 0 then 0 else ParseDecimal(s[..|s| - 1]) * 10 + DigitValue(s[|s| - 1])
  }

  lemma {:induction false} DecimalRoundTrip(n: nat)
    ensures ParseDecimal(Decimal(n)) == n
  {
    if n >= 10 {
      var s := Decimal(n);
      assert s[..|s| - 1] == Decimal(n / 10);
      DecimalRoundTrip(n / 10);
      assert DigitValue(s[|s| - 1]) == n % 10 by {
        assert DigitChar(DigitValue(s[|s| - 1])) == DigitChar(n % 10);
      }
    } else {
      assert DigitChar(DigitValue(Decimal(n)[0])) == DigitChar(n);
    }
  }

  lemma DecimalInjective(m: nat, n: nat)
    requires Decimal(m) == Decimal(n)
    ensures m == n
  {
    DecimalRoundTrip(m);
    DecimalRoundTrip(n);
  }
}

=== FILE: jwt.dfy ===
/**
 * The token helpers of src/utility/jwt.js. Signing and verification are
 * opaque (`sign` and `decode` parameters); what is modelled is the claim set,
 * its expiry second and the unverified reading of the middle segment.
 */
module Jwt {
  import opened Core
  import opened JsString
  import opened Schema

  /** The claims of an access token; `id` and `expiresIn` may be missing from a decoded token. */
  datatype Payload = Payload(
    id: Option<Id>,
    email: string,
    name: string,
    avatar: Option<string>,
    role: string,
    expiresIn: Option<int>)

  /** Twenty-four hours, in seconds. */
  const TokenLifetime := 24 * 60 * 60

  /** `Math.floor(nowMs / 1000)`: the current second. */
  function NowSeconds(nowMs: int): (s: int)
    ensures s * 1000 <= nowMs < s * 1000 + 1000
  {
    nowMs / 1000
  }

  /** The expiry second of a token issued at millisecond `nowMs`. */
  function ExpiresAt(nowMs: int): (e: int)
    ensures (e - TokenLifetime) * 1000 <= nowMs < (e - TokenLifetime) * 1000 + 1000
  {
    NowSeconds(nowMs) + TokenLifetime
  }

  /** The claims `createAccessToken` signs for user `u` at millisecond `nowMs`. */
  function ClaimsOf(u: User, nowMs: int): (p: Payload)
    ensures p.id == Some(u.id) && p.email == u.email && p.name == u.name
    ensures p.avatar == u.avatar && p.role == u.role
    ensures p.expiresIn == Some(ExpiresAt(nowMs))
  {
    Payload(Some(u.id), u.email, u.name, u.avatar, u.role, Some(ExpiresAt(nowMs)))
  }

  /** How the bookkeeping `findByIdAndUpdate` after signing ends. */
  datatype Bookkeeping = Completed | Threw

  /** What `createAccessToken` leaves behind: the token it returns and the users collection. */
  datatype Issued = Issued(token: string, users: seq<User>)

  /** The paths the bookkeeping update sets. */
  const BookkeepingPaths: set<string> := {"accessToken", "lastLogin"}

  /**
   * `createAccessToken`: sign the claims, then record the login. The record
   * sets only paths the user schema does not declare, so strict mode leaves an
   * empty update when it completes, and a throw is caught and logged. Either
   * way the token is returned and no stored user changes.
   */
  function CreateAccessToken(users: seq<User>, u: User, nowMs: int, sign: Payload -> string,
                             bookkeeping: Bookkeeping): (r: Issued)
    ensures r.token == sign(ClaimsOf(u, nowMs))
    ensures r.users == users
  {
    var token := sign(ClaimsOf(u, nowMs));
    match bookkeeping
    case Threw => Issued(token, users)
    case Completed =>
      var kept := StrictUserPaths(BookkeepingPaths);
      assert "accessToken" !in UserPaths && "lastLogin" !in UserPaths;
      assert kept == {};
      Issued(token, users)
  }

  /** Whether the bookkeeping write completes or throws is invisible to the caller. */
  lemma BookkeepingInvisible(users: seq<User>, u: User, nowMs: int, sign: Payload -> string)
    ensures CreateAccessToken(users, u, nowMs, sign, Completed) == CreateAccessToken(users, u, nowMs, sign, Threw)
  {
  }

  /**
   * `parseJwt`: the second `.`-separated segment, decoded by `parseSegment`
   * (base64 then JSON), without any check of the signature. None is a throw:
   * a token with no `.` has no second segment.
   */
  function ParseJwt(token: string, parseSegment: string -> Option<Payload>): (r: Option<Payload>)
    ensures '.' !in token ==> r.None?
  {
    var parts := Split(token, '.');
    if |parts| < 2 then None else parseSegment(parts[1])
  }

  /** A token `header.payload.signature` is read from its middle segment, whatever the signature says. */
  lemma ParseJwtReadsPayload(header: string, payload: string, signature: string, parseSegment: string -> Option<Payload>)
    requires '.' !in header && '.' !in payload
    ensures ParseJwt(header + "." + payload + "." + signature, parseSegment) == parseSegment(payload)
  {
    var tail := payload + "." + signature;
    var token := header + "." + payload + "." + signature;
    assert token == header + ['.'] + tail;
    assert tail == payload + ['.'] + signature;
    var rest := Split(signature, '.');
    SplitCons(payload, signature, '.');
    assert Split(tail, '.') == [payload] + rest;
    SplitCons(header, tail, '.');
    assert Split(token, '.') == [header] + ([payload] + rest);
    assert Split(token, '.')[1] == payload;
  }
}

=== FILE: query.dfy ===
/**
 * The list endpoints' shared query handling (getBooks in
 * src/controller/books.controller.js, getUser in
 * src/controller/users.controller.js): query-string defaults, the sort
 * direction, the page offset, and `find(filter).sort(key).skip(skip).limit(limit)`
 * next to `countDocuments(filter)`.
 */
module Query {
  import opened Core
  import opened Collections
  import opened App

  function OrDefault<T>(o: Option<T>, d: T): (r: T)
    ensures o.Some? ==> r == o.value
    ensures o.None? ==> r == d
  {
    match o case Some(v) => v case None => d
  }

  /** A query-string value JavaScript treats as true: present and not empty. */
  predicate Given(s: Option<string>)
  {
    s.Some? && s.value != ""
  }

  /** The sort direction: ascending exactly for "asc", descending otherwise. */
  function SortOrder(order: string): (d: int)
    ensures d == 1 <==> order == "asc"
    ensures d == -1 <==> order != "asc"
  {
    if order == "asc" then 1 else -1
  }

  /** The offset of page `page` when pages hold `limit` items. */
  function PageSkip(page: int, limit: int): (skip: int)
    ensures page >= 1 && limit >= 0 ==> skip >= 0
    ensures limit > 0 ==> (skip >= 0 <==> page >= 1)
    ensures page == 1 ==> skip == 0
  {
    (page - 1) * limit
  }

  /** Consecutive pages start `limit` items apart. */
  lemma PageSkipNext(page: int, limit: int)
    ensures PageSkip(page + 1, limit) == PageSkip(page, limit) + limit
  {
  }

  /** The result of a listing: the outcome, `total`, and the page in `data`. */
  datatype Listing<T> = Listing(outcome: Outcome, total: nat, items: seq<T>)

  /** The listing's envelope carries no message. */
  const Listed := Reply(200, "")

  /** Every document the filter selects, in the requested order: the sequence the pages are cut from. */
  function Ordered<T>(all: seq<T>, p: T -> bool, key: T -> int): (r: seq<T>)
    ensures |r| == |Where(all, p)|
    ensures multiset(r) == multiset(Where(all, p))
    ensures SortedBy(r, key)
    ensures forall i :: 0 <= i < |r| ==> r[i] in all && p(r[i])
  {
    var matched := Where(all, p);
    var sorted := SortBy(matched, key);
    MembersOfSorted(matched, sorted, p, all);
    assert |sorted| == |multiset(sorted)| == |multiset(matched)| == |matched|;
    sorted
  }

  /**
   * One page of a listing. A negative offset is refused by the database and
   * the error reaches the global handler.
   */
  function List<T>(all: seq<T>, p: T -> bool, key: T -> int, page: int, limit: int): (r: Listing<T>)
    ensures r.outcome.Forwarded? <==> PageSkip(page, limit) < 0
    ensures r.outcome.Forwarded? ==> r.outcome.err == Raise(BadValue) && r.items == []
    ensures r.outcome.Sent? ==> r.outcome == Sent(Listed) && r.total == |Where(all, p)|
    ensures forall i :: 0 <= i < |r.items| ==> r.items[i] in all && p(r.items[i])
    ensures SortedBy(r.items, key)
    ensures limit > 0 ==> |r.items| <= limit
    ensures PageSkip(page, limit) >= 0 ==> r.items == Slice(Ordered(all, p, key), PageSkip(page, limit), limit)
  {
    var skip := PageSkip(page, limit);
    if skip < 0 then Listing(Forwarded(Raise(BadValue)), 0, [])
    else
      var sorted := Ordered(all, p, key);
      SliceFacts(sorted, skip, limit, key, (x: T) => x in all && p(x));
      Listing(Sent(Listed), |sorted|, Slice(sorted, skip, limit))
  }

  /** `total` counts every match: it does not depend on the page or its size. */
  lemma TotalIgnoresPaging<T>(all: seq<T>, p: T -> bool, key: T -> int, page: int, limit: int, page': int, limit': int)
    requires PageSkip(page, limit) >= 0 && PageSkip(page', limit') >= 0
    ensures List(all, p, key, page, limit).total == List(all, p, key, page', limit').total
  {
  }

  /** Page `page + 1` continues where page `page` stops: together they are the window of twice the size. */
  lemma NextPageContinues<T>(all: seq<T>, p: T -> bool, key: T -> int, page: int, limit: int)
    requires page >= 1 && limit > 0
    ensures List(all, p, key, page, limit).items + List(all, p, key, page + 1, limit).items
         == Slice(Ordered(all, p, key), PageSkip(page, limit), 2 * limit)
  {
    var sorted := Ordered(all, p, key);
    var skip := PageSkip(page, limit);
    PageSkipNext(page, limit);
    assert List(all, p, key, page, limit).items == Slice(sorted, skip, limit);
    assert List(all, p, key, page + 1, limit).items == Slice(sorted, skip + limit, limit);
    SliceAdjacent(sorted, skip, limit);
  }
}

=== FILE: ratings.dfy ===
/**
 * The rating aggregate of src/utility/ratings.js: a book's `averageRating` is
 * the mean of its reviews' ratings rounded to two decimals, `reviewsCount` the
 * number of its reviews; `null`/0 when it has none. `recalcBookRating`
 * recomputes both from scratch and writes them onto the book.
 */
module Ratings {
  import opened Core
  import opened Collections
  import opened Schema

  /** The ratings `$match: { bookId }` feeds to `$group`, in collection order. */
  function RatingsOf(reviews: seq<Review>, bookId: Id): seq<real>
  {
    if |reviews| == 0 then []
    else if reviews[0].bookId == bookId then [reviews[0].rating] + RatingsOf(reviews[1..], bookId)
    else RatingsOf(reviews[1..], bookId)
  }

  function Sum(xs: seq<real>): real
  {
    if |xs| == 0 then 0.0 else xs[0] + Sum(xs[1..])
  }

  /** `toFixed(2)` on a non-negative exact value: the nearest hundredth, ties upward. */
  function RoundHalfUp2(x: real): (r: real)
    requires x >= 0.0
    ensures x - 0.005 < r <= x + 0.005
    ensures (r * 100.0).Floor as real == r * 100.0
  {
    var n := (x * 100.0 + 0.5).Floor;
    assert (n as real / 100.0) * 100.0 == n as real;
    n as real / 100.0
  }

  /** `Number(x.toFixed(2))` on an exact value: negatives are rounded by magnitude. */
  function Round2(x: real): (r: real)
    ensures x - 0.005 <= r <= x + 0.005
    ensures (r * 100.0).Floor as real == r * 100.0
  {
    if x < 0.0 then
      var q := RoundHalfUp2(-x);
      NegatedHundredths(q);
      -q
    else RoundHalfUp2(x)
  }

  /** A whole number of hundredths stays one when negated. */
  lemma NegatedHundredths(q: real)
    requires (q * 100.0).Floor as real == q * 100.0
    ensures ((-q) * 100.0).Floor as real == (-q) * 100.0
  {
    var m := (q * 100.0).Floor;
    assert (-q) * 100.0 == (-m) as real;
  }

  /** Rounding keeps a value in the closed range [1, 5]. */
  lemma Round2InRange(x: real)
    requires 1.0 <= x <= 5.0
    ensures 1.0 <= Round2(x) <= 5.0
  {
    var y := x * 100.0 + 0.5;
    assert 100.5 <= y <= 500.5;
    assert y.Floor >= 100 by {
      assert y.Floor as real > y - 1.0;
    }
    assert y.Floor <= 500 by {
      assert y.Floor as real <= y;
    }
  }

  /** A value already given in hundredths is left alone, so rounding twice is rounding once. */
  lemma Round2Idempotent(x: real)
    ensures Round2(Round2(x)) == Round2(x)
  {
    if x >= 0.0 {
      var n := (x * 100.0 + 0.5).Floor;
      assert n >= 0;
      assert RoundHalfUp2(RoundHalfUp2(x)) == RoundHalfUp2(x) by {
        var r := n as real / 100.0;
        assert r * 100.0 + 0.5 == n as real + 0.5;
        assert (n as real + 0.5).Floor == n;
      }
    } else {
      var n := (-x * 100.0 + 0.5).Floor;
      var r := n as real / 100.0;
      assert r * 100.0 + 0.5 == n as real + 0.5;
      assert (n as real + 0.5).Floor == n;
      if n == 0 {
        assert Round2(x) == 0.0;
      }
    }
  }

  /** What `$group` and the `toFixed` step produce for one book. */
  datatype Aggregate = Aggregate(averageRating: Option<real>, count: nat)

  const NoReviews := Aggregate(None, 0)

  /** `$avg` rounded by `toFixed(2)` and `$sum: 1` over the ratings of the book's reviews; null/0 for none. */
  function AggregateOf(reviews: seq<Review>, bookId: Id): (a: Aggregate)
    ensures a.count == |RatingsOf(reviews, bookId)|
    ensures a.averageRating.Some? <==> a.count > 0
    ensures a.averageRating.Some? ==>
              var mean := Sum(RatingsOf(reviews, bookId)) / a.count as real;
              && mean - 0.005 <= a.averageRating.value <= mean + 0.005
              && (a.averageRating.value * 100.0).Floor as real == a.averageRating.value * 100.0
  {
    var rs := RatingsOf(reviews, bookId);
    if |rs| == 0 then NoReviews
    else Aggregate(Some(Round2(Sum(rs) / |rs| as real)), |rs|)
  }

  lemma {:induction false} RatingsOfConcat(a: seq<Review>, b: seq<Review>, bookId: Id)
    ensures RatingsOf(a + b, bookId) == RatingsOf(a, bookId) + RatingsOf(b, bookId)
  {
    if |a| > 0 {
      assert (a + b)[1..] == a[1..] + b;
      RatingsOfConcat(a[1..], b, bookId);
    } else {
      assert a + b == b;
    }
  }

  /** The ratings are exactly those of the reviews `{ bookId }` selects. */
  lemma {:induction false} RatingsOfSelected(reviews: seq<Review>, bookId: Id)
    ensures |RatingsOf(reviews, bookId)| == |Where(reviews, OnBook(bookId))|
    ensures forall i :: 0 <= i < |RatingsOf(reviews, bookId)| ==>
              RatingsOf(reviews, bookId)[i] == Where(reviews, OnBook(bookId))[i].rating
  {
    if |reviews| > 0 {
      RatingsOfSelected(reviews[1..], bookId);
    }
  }

  /** A book has the empty aggregate exactly when no review refers to it. */
  lemma {:induction false} NoReviewsIff(reviews: seq<Review>, bookId: Id)
    ensures AggregateOf(reviews, bookId) == NoReviews <==> forall i :: 0 <= i < |reviews| ==> reviews[i].bookId != bookId
  {
    if |reviews| > 0 {
      NoReviewsIff(reviews[1..], bookId);
      if reviews[0].bookId != bookId {
        assert forall i :: 1 <= i < |reviews| ==> reviews[i] == reviews[1..][i - 1];
      }
    }
  }

  /** The count is the number of reviews `countDocuments({ bookId })` finds. */
  lemma AggregateCount(reviews: seq<Review>, bookId: Id)
    ensures AggregateOf(reviews, bookId).count == |Where(reviews, OnBook(bookId))|
    ensures AggregateOf(reviews, bookId).averageRating.Some? <==> AggregateOf(reviews, bookId).count > 0
  {
    RatingsOfSelected(reviews, bookId);
  }

  lemma {:induction false} SumBounds(xs: seq<real>, lo: real, hi: real)
    requires forall i :: 0 <= i < |xs| ==> lo <= xs[i] <= hi
    ensures |xs| as real * lo <= Sum(xs) <= |xs| as real * hi
  {
    if |xs| > 0 {
      SumBounds(xs[1..], lo, hi);
    }
  }

  lemma {:induction false} RatingsWithin(reviews: seq<Review>, bookId: Id, lo: real, hi: real)
    requires forall i :: 0 <= i < |reviews| && reviews[i].bookId == bookId ==> lo <= reviews[i].rating <= hi
    ensures forall i :: 0 <= i < |RatingsOf(reviews, bookId)| ==> lo <= RatingsOf(reviews, bookId)[i] <= hi
  {
    if |reviews| > 0 {
      RatingsWithin(reviews[1..], bookId, lo, hi);
    }
  }

  lemma MeanWithin(xs: seq<real>, lo: real, hi: real)
    requires |xs| > 0
    requires forall i :: 0 <= i < |xs| ==> lo <= xs[i] <= hi
    ensures lo <= Sum(xs) / |xs| as real <= hi
  {
    SumBounds(xs, lo, hi);
    QuotientBounds(Sum(xs), |xs| as real, lo, hi);
  }

  /** A quotient by a positive number inherits the bounds of the dividend scaled by it. */
  lemma QuotientBounds(s: real, n: real, lo: real, hi: real)
    requires n > 0.0 && lo * n <= s <= hi * n
    ensures lo <= s / n <= hi
  {
    var m := s / n;
    assert m * n == s;
    assert (m - lo) * n == s - lo * n;
    assert (hi - m) * n == hi * n - s;
    SignOfProduct(m - lo, n);
    SignOfProduct(hi - m, n);
  }

  lemma SignOfProduct(d: real, n: real)
    requires n > 0.0 && d * n >= 0.0
    ensures d >= 0.0
  {
    assert d == (d * n) / n;
  }

  /** When every review of the book is rated within [1, 5], so is the stored average. */
  lemma AverageInRange(reviews: seq<Review>, bookId: Id)
    requires forall i :: 0 <= i < |reviews| && reviews[i].bookId == bookId ==> 1.0 <= reviews[i].rating <= 5.0
    ensures AggregateOf(reviews, bookId).averageRating.Some? ==> 1.0 <= AggregateOf(reviews, bookId).averageRating.value <= 5.0
  {
    var rs := RatingsOf(reviews, bookId);
    if |rs| > 0 {
      RatingsWithin(reviews, bookId, 1.0, 5.0);
      MeanWithin(rs, 1.0, 5.0);
      Round2InRange(Sum(rs) / |rs| as real);
    }
  }

  /** The average stays within half a hundredth of the exact mean. */
  lemma AverageNearMean(reviews: seq<Review>, bookId: Id)
    requires |RatingsOf(reviews, bookId)| > 0
    ensures var rs := RatingsOf(reviews, bookId);
            var a := AggregateOf(reviews, bookId).averageRating.value;
            Sum(rs) / |rs| as real - 0.005 <= a <= Sum(rs) / |rs| as real + 0.005
  {
  }

  /** Only the reviews of the book itself count: adding, changing or removing another book's review leaves its aggregate alone. */
  lemma RatingsOfIgnoresOthers(before: seq<Review>, x: Review, after: seq<Review>, bookId: Id)
    requires x.bookId != bookId
    ensures RatingsOf(before + [x] + after, bookId) == RatingsOf(before + after, bookId)
  {
    RatingsOfConcat(before + [x], after, bookId);
    RatingsOfConcat(before, [x], bookId);
    RatingsOfConcat(before, after, bookId);
    assert RatingsOf([x], bookId) == [];
  }

  /** Rewriting a review in place without moving it to another book leaves the other books' ratings alone. */
  lemma RatingsOfReplace(reviews: seq<Review>, k: nat, doc: Review, bookId: Id)
    requires k < |reviews| && doc.bookId == reviews[k].bookId && bookId != doc.bookId
    ensures RatingsOf(reviews[k := doc], bookId) == RatingsOf(reviews, bookId)
  {
    var before := reviews[..k];
    var after := reviews[k + 1..];
    assert reviews[k := doc] == before + [doc] + after;
    assert reviews == before + [reviews[k]] + after;
    RatingsOfIgnoresOthers(before, doc, after, bookId);
    RatingsOfIgnoresOthers(before, reviews[k], after, bookId);
  }

  /** Removing a review leaves the other books' ratings alone. */
  lemma RatingsOfRemove(reviews: seq<Review>, k: nat, bookId: Id)
    requires k < |reviews| && bookId != reviews[k].bookId
    ensures RatingsOf(RemoveAt(reviews, k), bookId) == RatingsOf(reviews, bookId)
  {
    var before := reviews[..k];
    var after := reviews[k + 1..];
    assert reviews == before + [reviews[k]] + after;
    assert RemoveAt(reviews, k) == before + after;
    RatingsOfIgnoresOthers(before, reviews[k], after, bookId);
  }

  /** Deleting one book's reviews leaves every other book's ratings as they were. */
  lemma {:induction false} RatingsOfOffBook(reviews: seq<Review>, id: Id, bookId: Id)
    requires bookId != id
    ensures RatingsOf(Where(reviews, OffBook(id)), bookId) == RatingsOf(reviews, bookId)
  {
    if |reviews| > 0 {
      RatingsOfOffBook(reviews[1..], id, bookId);
    }
  }

  /** The book's fields after `findByIdAndUpdate(bookId, { averageRating, reviewsCount })`. */
  function WithAggregate(b: Book, a: Aggregate): Book
  {
    b.(averageRating := a.averageRating, reviewsCount := a.count)
  }

  /** The result of `recalcBookRating`: the updated book (or `null`) and the books collection afterwards. */
  datatype Recalc = Recalc(updated: Option<Book>, books: seq<Book>)

  function RecalcBookRating(books: seq<Book>, reviews: seq<Review>, bookId: string): (r: Recalc)
    ensures |r.books| == |books|
    ensures forall i :: 0 <= i < |books| ==> r.books[i].id == books[i].id
    ensures !ValidId(bookId) ==> r == Recalc(None, books)
    ensures forall i :: 0 <= i < |books| && books[i].id != bookId ==> r.books[i] == books[i]
    ensures r.updated.Some? ==> r.updated.value.id == bookId && r.updated.value in r.books
    ensures r.updated.None? ==> r.books == books
    ensures ValidId(bookId) && (exists i :: 0 <= i < |books| && books[i].id == bookId) ==> r.updated.Some?
  {
    if !ValidId(bookId) then Recalc(None, books)
    else
      match FirstIndex(books, BookWithId(bookId))
      case None => Recalc(None, books)
      case Some(k) =>
        var b := WithAggregate(books[k], AggregateOf(reviews, bookId));
        Recalc(Some(b), books[k := b])
  }

  /** The stored pair of every book equals the aggregate over its current reviews. */
  ghost predicate Consistent(books: seq<Book>, reviews: seq<Review>)
  {
    forall i :: 0 <= i < |books| ==> Agrees(books[i], AggregateOf(reviews, books[i].id))
  }

  predicate Agrees(b: Book, a: Aggregate)
  {
    b.averageRating == a.averageRating && b.reviewsCount == a.count
  }

  /** After a recalculation the book carries exactly the aggregate of its reviews. */
  lemma RecalcWritesAggregate(books: seq<Book>, reviews: seq<Review>, bookId: string)
    requires UniqueBy(books, BookKey)
    ensures forall i :: 0 <= i < |books| && books[i].id == bookId && ValidId(bookId) ==>
              Agrees(RecalcBookRating(books, reviews, bookId).books[i], AggregateOf(reviews, bookId))
  {
    var r := RecalcBookRating(books, reviews, bookId);
    forall i | 0 <= i < |books| && books[i].id == bookId && ValidId(bookId)
      ensures Agrees(r.books[i], AggregateOf(reviews, bookId))
    {
      var k := FirstIndex(books, BookWithId(bookId)).value;
      assert BookKey(books[k]) == BookKey(books[i]);
      assert k == i;
    }
  }

  /** Both fields are overwritten wholesale: whatever the book held before does not matter. */
  lemma RecalcOverwrites(books: seq<Book>, reviews: seq<Review>, bookId: string, k: nat, stale: Aggregate)
    requires ValidId(bookId) && k < |books| && books[k].id == bookId && UniqueBy(books, BookKey)
    ensures RecalcBookRating(books[k := WithAggregate(books[k], stale)], reviews, bookId).books
         == RecalcBookRating(books, reviews, bookId).books
  {
    var stale' := books[k := WithAggregate(books[k], stale)];
    var p := BookWithId(bookId);
    var j := FirstIndex(books, p).value;
    assert j <= k;
    assert BookKey(books[j]) == BookKey(books[k]);
    assert FirstIndex(stale', p) == Some(j) by {
      assert forall m :: 0 <= m < |books| ==> (p(stale'[m]) <==> p(books[m]));
      FirstIndexAgrees(books, stale', p);
    }
    assert j == k;
    var a := AggregateOf(reviews, bookId);
    assert WithAggregate(stale'[k], a) == WithAggregate(books[k], a);
    assert stale'[k := WithAggregate(stale'[k], a)] == books[k := WithAggregate(books[k], a)];
    assert RecalcBookRating(stale', reviews, bookId).books == stale'[k := WithAggregate(stale'[k], a)];
    assert RecalcBookRating(books, reviews, bookId).books == books[k := WithAggregate(books[k], a)];
  }

  /** Recomputing twice in a row writes nothing new. */
  lemma RecalcIdempotent(books: seq<Book>, reviews: seq<Review>, bookId: string)
    ensures var once := RecalcBookRating(books, reviews, bookId).books;
            RecalcBookRating(once, reviews, bookId).books == once
  {
    var once := RecalcBookRating(books, reviews, bookId);
    if ValidId(bookId) && once.updated.Some? {
      var p := BookWithId(bookId);
      var k := FirstIndex(books, p).value;
      FirstIndexAgrees(books, once.books, p);
      var a := AggregateOf(reviews, bookId);
      assert once.books[k] == WithAggregate(books[k], a);
      assert WithAggregate(once.books[k], a) == once.books[k];
    }
  }

  /**
   * The restoring step every review mutation relies on: if the books agreed with
   * the old reviews and the new reviews differ only on book `bookId`, recomputing
   * `bookId` makes every book agree again.
   */
  lemma RecalcRestores(books: seq<Book>, reviews: seq<Review>, reviews': seq<Review>, bookId: Id)
    requires UniqueBy(books, BookKey) && ValidId(bookId)
    requires Consistent(books, reviews)
    requires forall i :: 0 <= i < |books| && books[i].id != bookId ==> RatingsOf(reviews', books[i].id) == RatingsOf(reviews, books[i].id)
    ensures Consistent(RecalcBookRating(books, reviews', bookId).books, reviews')
  {
    var r := RecalcBookRating(books, reviews', bookId);
    RecalcWritesAggregate(books, reviews', bookId);
    forall i | 0 <= i < |r.books|
      ensures Agrees(r.books[i], AggregateOf(reviews', r.books[i].id))
    {
      if books[i].id == bookId {
        assert r.books[i].id == bookId;
      } else {
        assert r.books[i] == books[i];
      }
    }
  }
}

=== FILE: review_hooks.dfy ===
/**
 * The post hooks of the review model (src/models/reviews.js): after `save`,
 * `findOneAndUpdate` and `findOneAndDelete` the affected review's book is
 * recalculated. A failing recalculation is logged and swallowed, so it leaves
 * the book's fields as they were and never fails the review operation.
 */
module ReviewHooks {
  import opened Core
  import opened Collections
  import opened Schema
  import opened Ratings

  /**
   * One post hook. `doc` is the document the operation saved or matched (None
   * for a query that matched nothing); `fails` says whether the recalculation
   * threw.
   */
  function RecalcHook(db: Db, doc: Option<Review>, fails: bool): (r: Db)
    ensures r.reviews == db.reviews && r.users == db.users && |r.books| == |db.books|
    ensures doc.None? || fails ==> r == db
    ensures forall i :: 0 <= i < |db.books| ==> r.books[i].id == db.books[i].id
    ensures forall i :: 0 <= i < |db.books| && (doc.None? || db.books[i].id != doc.value.bookId) ==> r.books[i] == db.books[i]
    ensures doc.Some? && !fails && ValidId(doc.value.bookId) && FirstIndex(db.books, BookWithId(doc.value.bookId)).Some? ==>
              Agrees(r.books[FirstIndex(db.books, BookWithId(doc.value.bookId)).value], AggregateOf(db.reviews, doc.value.bookId))
  {
    match doc
    case None => db
    case Some(d) => if fails then db else db.(books := RecalcBookRating(db.books, db.reviews, d.bookId).books)
  }
}

=== FILE: reviews_controller.dfy ===
/**
 * The review handlers of src/controller/reviews.controller.js: create, partial
 * update and delete, each a step from the database to an outcome and a new
 * database. `caller` is `req.user.id`, set by the access-control middleware;
 * `hookFails` says whether the post hook's recalculation throws.
 */
module ReviewsController {
  import opened Core
  import opened Collections
  import opened App
  import opened Schema
  import opened Ratings
  import opened ReviewHooks
  import opened Integrity

  /** The JSON body: `{ rating, comment }`, either possibly missing. */
  datatype ReviewBody = ReviewBody(rating: Option<real>, comment: Option<string>)

  /** A handler's outcome, the review it returns as `data`, and the database afterwards. */
  datatype ReviewStep = ReviewStep(outcome: Outcome, data: Option<Review>, db: Db)

  const BookNotFound := Reply(404, "Book not found")
  const ReviewCreated := Reply(201, "Review created successfully")
  const InvalidReviewId := Reply(400, "Invalid review id")
  const ReviewNotFound := Reply(404, "Review not found")
  const NotAuthorized := Reply(403, "Not authorized")
  const ReviewUpdated := Reply(200, "Review updated successfully")
  const ReviewDeleted := Reply(200, "Review deleted successfully")

  /** The error thrown by the invalid-book-id branch: the response object has no `sendJson` method. */
  const SendJsonMissing := Failure(TypeError, "res.sendJson is not a function", "")

  function SamePair(bookId: Id, user: Id): Review -> bool
  {
    (x: Review) => x.bookId == bookId && x.user == user
  }

  /** Whether the unique index `{ bookId, user }` already holds this pair. */
  predicate PairTaken(reviews: seq<Review>, bookId: Id, user: Id)
  {
    FirstIndex(reviews, SamePair(bookId, user)).Some?
  }

  function CreateFields(bookParam: string, caller: Id, body: ReviewBody): ReviewFields
  {
    ReviewFields(bookParam, caller, body.rating, body.comment)
  }

  /** `createReview`: `POST /api/reviews/:id`, `bookParam` being the `:id`. */
  function CreateReview(db: Db, bookParam: string, caller: Id, body: ReviewBody, newId: Id, hookFails: bool): (r: ReviewStep)
    ensures !ValidId(bookParam) ==> r.outcome.Forwarded? && r.db == db
    ensures ValidId(bookParam) && FindBook(db.books, bookParam).None? ==> r.outcome == Sent(BookNotFound) && r.db == db
    ensures r.outcome == Sent(ReviewCreated) <==>
              && ValidId(bookParam) && FindBook(db.books, bookParam).Some?
              && NewReview(newId, CreateFields(bookParam, caller, body)).Ok?
              && !PairTaken(db.reviews, bookParam, caller)
    ensures r.outcome == Sent(ReviewCreated) ==>
              && r.data.Some?
              && r.data.value == Review(newId, bookParam, caller, body.rating.value,
                                        if body.comment.Some? then body.comment.value else "")
              && 1.0 <= r.data.value.rating <= 5.0
              && r.db.reviews == db.reviews + [r.data.value]
              && r.db.users == db.users
    ensures r.outcome != Sent(ReviewCreated) ==> r.db == db && r.data.None?
    ensures r.db.users == db.users && |r.db.books| == |db.books|
    ensures forall i :: 0 <= i < |db.books| ==> r.db.books[i].id == db.books[i].id
    ensures forall i :: 0 <= i < |db.books| && db.books[i].id != bookParam ==> r.db.books[i] == db.books[i]
    ensures r.outcome == Sent(ReviewCreated) && !hookFails ==>
              && FirstIndex(db.books, BookWithId(bookParam)).Some?
              && Agrees(r.db.books[FirstIndex(db.books, BookWithId(bookParam)).value], AggregateOf(r.db.reviews, bookParam))
  {
    if !ValidId(bookParam) then ReviewStep(Forwarded(SendJsonMissing), None, db)
    else if FindBook(db.books, bookParam).None? then ReviewStep(Sent(BookNotFound), None, db)
    else match NewReview(newId, CreateFields(bookParam, caller, body))
      case Err(e) => ReviewStep(Forwarded(e), None, db)
      case Ok(doc) =>
        if PairTaken(db.reviews, bookParam, caller) then ReviewStep(Forwarded(Raise(DuplicateKey)), None, db)
        else
          var written := db.(reviews := db.reviews + [doc]);
          ReviewStep(Sent(ReviewCreated), Some(doc), RecalcHook(written, Some(doc), hookFails))
  }

  /** A `rating` that JavaScript treats as true: present and not zero. */
  predicate Truthy(rating: Option<real>)
  {
    rating.Some? && rating.value != 0.0
  }

  /**
   * The `$set` of `updateReview`: `rating` only when truthy, `comment` only when
   * defined. No validator runs, so any non-zero rating is stored.
   */
  function Patch(x: Review, body: ReviewBody): (p: Review)
    ensures p.id == x.id && p.bookId == x.bookId && p.user == x.user
    ensures Truthy(body.rating) ==> p.rating == body.rating.value
    ensures !Truthy(body.rating) ==> p.rating == x.rating
    ensures body.comment.Some? ==> p.comment == body.comment.value
    ensures body.comment.None? ==> p.comment == x.comment
  {
    x.(rating := if Truthy(body.rating) then body.rating.value else x.rating,
       comment := if body.comment.Some? then body.comment.value else x.comment)
  }

  /** Applying the same partial update twice is applying it once; an empty one changes nothing. */
  lemma PatchIdempotent(x: Review, body: ReviewBody)
    ensures Patch(Patch(x, body), body) == Patch(x, body)
    ensures body == ReviewBody(None, None) ==> Patch(x, body) == x
  {
  }

  /** The author recorded on review `id`, when there is one. */
  function AuthorOf(reviews: seq<Review>, id: Id): Option<Id>
  {
    match FirstIndex(reviews, ReviewWithId(id))
    case None => None
    case Some(k) => Some(reviews[k].user)
  }

  /** The book of review `id`, when there is one: the book whose aggregate a write to that review recalculates. */
  function ReviewedBook(reviews: seq<Review>, id: Id): (r: Option<Id>)
    ensures r.Some? <==> AuthorOf(reviews, id).Some?
  {
    match FirstIndex(reviews, ReviewWithId(id))
    case None => None
    case Some(k) => Some(reviews[k].bookId)
  }

  /** `updateReview`: `PUT /api/reviews/:id`. */
  function UpdateReview(db: Db, reviewParam: string, caller: Id, body: ReviewBody, hookFails: bool): (r: ReviewStep)
    ensures r.outcome == Sent(InvalidReviewId) <==> !ValidId(reviewParam)
    ensures r.outcome == Sent(ReviewNotFound) <==> ValidId(reviewParam) && AuthorOf(db.reviews, reviewParam).None?
    ensures r.outcome == Sent(NotAuthorized) <==>
              ValidId(reviewParam) && AuthorOf(db.reviews, reviewParam).Some? && AuthorOf(db.reviews, reviewParam).value != caller
    ensures r.outcome == Sent(ReviewUpdated) <==> ValidId(reviewParam) && AuthorOf(db.reviews, reviewParam) == Some(caller)
    ensures r.outcome != Sent(ReviewUpdated) ==> r.db == db && r.data.None?
    ensures r.outcome == Sent(ReviewUpdated) ==>
              exists k :: 0 <= k < |db.reviews| && db.reviews[k].id == reviewParam
                          && r.data == Some(Patch(db.reviews[k], body))
                          && r.db.reviews == db.reviews[k := Patch(db.reviews[k], body)]
    ensures r.db.users == db.users && |r.db.books| == |db.books|
    ensures forall i :: 0 <= i < |db.books| ==> r.db.books[i].id == db.books[i].id
    ensures forall i :: 0 <= i < |db.books| && Some(db.books[i].id) != ReviewedBook(db.reviews, reviewParam) ==>
              r.db.books[i] == db.books[i]
    ensures r.outcome == Sent(ReviewUpdated) && !hookFails ==>
              var b := ReviewedBook(db.reviews, reviewParam).value;
              ValidId(b) && FirstIndex(db.books, BookWithId(b)).Some? ==>
                Agrees(r.db.books[FirstIndex(db.books, BookWithId(b)).value], AggregateOf(r.db.reviews, b))
  {
    if !ValidId(reviewParam) then ReviewStep(Sent(InvalidReviewId), None, db)
    else match FirstIndex(db.reviews, ReviewWithId(reviewParam))
      case None => ReviewStep(Sent(ReviewNotFound), None, db)
      case Some(k) =>
        if db.reviews[k].user != caller then ReviewStep(Sent(NotAuthorized), None, db)
        else
          var updated := Patch(db.reviews[k], body);
          var written := db.(reviews := db.reviews[k := updated]);
          ReviewStep(Sent(ReviewUpdated), Some(updated), RecalcHook(written, Some(updated), hookFails))
  }

  /** `deleteReview`: `DELETE /api/reviews/:id`. */
  function DeleteReview(db: Db, reviewParam: string, caller: Id, hookFails: bool): (r: ReviewStep)
    ensures r.outcome == Sent(InvalidReviewId) <==> !ValidId(reviewParam)
    ensures r.outcome == Sent(ReviewNotFound) <==> ValidId(reviewParam) && AuthorOf(db.reviews, reviewParam).None?
    ensures r.outcome == Sent(NotAuthorized) <==>
              ValidId(reviewParam) && AuthorOf(db.reviews, reviewParam).Some? && AuthorOf(db.reviews, reviewParam).value != caller
    ensures r.outcome == Sent(ReviewDeleted) <==> ValidId(reviewParam) && AuthorOf(db.reviews, reviewParam) == Some(caller)
    ensures r.outcome != Sent(ReviewDeleted) ==> r.db == db
    ensures r.outcome == Sent(ReviewDeleted) ==>
              exists k :: 0 <= k < |db.reviews| && db.reviews[k].id == reviewParam
                          && r.db.reviews == RemoveAt(db.reviews, k)
    ensures r.db.users == db.users && |r.db.books| == |db.books|
    ensures forall i :: 0 <= i < |db.books| ==> r.db.books[i].id == db.books[i].id
    ensures forall i :: 0 <= i < |db.books| && Some(db.books[i].id) != ReviewedBook(db.reviews, reviewParam) ==>
              r.db.books[i] == db.books[i]
    ensures r.outcome == Sent(ReviewDeleted) && !hookFails ==>
              var b := ReviewedBook(db.reviews, reviewParam).value;
              ValidId(b) && FirstIndex(db.books, BookWithId(b)).Some? ==>
                Agrees(r.db.books[FirstIndex(db.books, BookWithId(b)).value], AggregateOf(r.db.reviews, b))
  {
    if !ValidId(reviewParam) then ReviewStep(Sent(InvalidReviewId), None, db)
    else match FirstIndex(db.reviews, ReviewWithId(reviewParam))
      case None => ReviewStep(Sent(ReviewNotFound), None, db)
      case Some(k) =>
        if db.reviews[k].user != caller then ReviewStep(Sent(NotAuthorized), None, db)
        else
          var doc := db.reviews[k];
          var written := db.(reviews := RemoveAt(db.reviews, k));
          ReviewStep(Sent(ReviewDeleted), None, RecalcHook(written, Some(doc), hookFails))
  }

  // ------------------------------------------------------------ properties

  /** A failing recalculation changes neither the reply nor the review collection. */
  lemma HookFailureInvisible(db: Db, param: string, caller: Id, body: ReviewBody, newId: Id)
    ensures CreateReview(db, param, caller, body, newId, true).outcome == CreateReview(db, param, caller, body, newId, false).outcome
    ensures CreateReview(db, param, caller, body, newId, true).db.reviews == CreateReview(db, param, caller, body, newId, false).db.reviews
    ensures UpdateReview(db, param, caller, body, true).outcome == UpdateReview(db, param, caller, body, false).outcome
    ensures UpdateReview(db, param, caller, body, true).db.reviews == UpdateReview(db, param, caller, body, false).db.reviews
    ensures DeleteReview(db, param, caller, true).outcome == DeleteReview(db, param, caller, false).outcome
    ensures DeleteReview(db, param, caller, true).db.reviews == DeleteReview(db, param, caller, false).db.reviews
  {
  }

  /** After a successful create, the review's book carries the aggregate over all its reviews, the new one included. */
  lemma CreateReviewPreserves(db: Db, bookParam: string, caller: Id, body: ReviewBody, newId: Id)
    requires Wellformed(db)
    requires forall i :: 0 <= i < |db.reviews| ==> db.reviews[i].id != newId
    ensures Wellformed(CreateReview(db, bookParam, caller, body, newId, false).db)
  {
    var r := CreateReview(db, bookParam, caller, body, newId, false);
    if r.outcome == Sent(ReviewCreated) {
      var doc := r.data.value;
      var reviews' := db.reviews + [doc];
      UniqueByAppend(db.reviews, doc, ReviewKey);
      forall i | 0 <= i < |db.reviews|
        ensures ReviewPair(db.reviews[i]) != ReviewPair(doc)
      {
        assert !SamePair(bookParam, caller)(db.reviews[i]);
      }
      UniqueByAppend(db.reviews, doc, ReviewPair);
      forall c | c != doc.bookId
        ensures RatingsOf(reviews', c) == RatingsOf(db.reviews, c)
      {
        RatingsOfIgnoresOthers(db.reviews, doc, [], c);
        assert db.reviews + [doc] + [] == reviews';
        assert db.reviews + [] == db.reviews;
      }
      HookRestoresConsistency(db, reviews', doc);
    }
  }

  lemma UpdateReviewPreserves(db: Db, reviewParam: string, caller: Id, body: ReviewBody)
    requires Wellformed(db)
    ensures Wellformed(UpdateReview(db, reviewParam, caller, body, false).db)
  {
    var r := UpdateReview(db, reviewParam, caller, body, false);
    if r.outcome == Sent(ReviewUpdated) {
      var k := FirstIndex(db.reviews, ReviewWithId(reviewParam)).value;
      var doc := Patch(db.reviews[k], body);
      var reviews' := db.reviews[k := doc];
      assert r.db == RecalcHook(db.(reviews := reviews'), Some(doc), false);
      UniqueByReplace(db.reviews, k, doc, ReviewKey);
      UniqueByReplace(db.reviews, k, doc, ReviewPair);
      assert forall i :: 0 <= i < |reviews'| ==> reviews'[i].bookId == db.reviews[i].bookId;
      forall c | c != doc.bookId
        ensures RatingsOf(reviews', c) == RatingsOf(db.reviews, c)
      {
        RatingsOfReplace(db.reviews, k, doc, c);
      }
      ReviewWritePreserves(db, reviews', doc);
    }
  }

  lemma UniqueByAfterRemove(db: Db, k: nat)
    requires k < |db.reviews| && Wellformed(db)
    ensures UniqueBy(RemoveAt(db.reviews, k), ReviewKey) && UniqueBy(RemoveAt(db.reviews, k), ReviewPair)
  {
    UniqueByRemoveAt(db.reviews, k, ReviewKey);
    UniqueByRemoveAt(db.reviews, k, ReviewPair);
  }

  lemma DeleteReviewPreserves(db: Db, reviewParam: string, caller: Id)
    requires Wellformed(db)
    ensures Wellformed(DeleteReview(db, reviewParam, caller, false).db)
  {
    var r := DeleteReview(db, reviewParam, caller, false);
    if r.outcome == Sent(ReviewDeleted) {
      var k := FirstIndex(db.reviews, ReviewWithId(reviewParam)).value;
      var doc := db.reviews[k];
      var reviews' := RemoveAt(db.reviews, k);
      assert r.db == RecalcHook(db.(reviews := reviews'), Some(doc), false);
      UniqueByAfterRemove(db, k);
      forall i | 0 <= i < |reviews'|
        ensures ValidId(reviews'[i].bookId)
      {
        assert reviews'[i] == db.reviews[if i < k then i else i + 1];
      }
      forall c | c != doc.bookId
        ensures RatingsOf(reviews', c) == RatingsOf(db.reviews, c)
      {
        RatingsOfRemove(db.reviews, k, c);
      }
      ReviewWritePreserves(db, reviews', doc);
    }
  }

  /** Once a user has reviewed a book, a second review by the same user on that book is refused and stores nothing. */
  lemma SecondReviewRejected(db: Db, bookParam: string, caller: Id, body: ReviewBody, newId: Id,
                             body2: ReviewBody, newId2: Id, hookFails: bool)
    requires CreateReview(db, bookParam, caller, body, newId, hookFails).outcome == Sent(ReviewCreated)
    ensures var db1 := CreateReview(db, bookParam, caller, body, newId, hookFails).db;
            var again := CreateReview(db1, bookParam, caller, body2, newId2, hookFails);
            again.outcome.Forwarded? && again.db == db1
  {
    var db1 := CreateReview(db, bookParam, caller, body, newId, hookFails).db;
    var last := |db1.reviews| - 1;
    assert SamePair(bookParam, caller)(db1.reviews[last]);
    assert PairTaken(db1.reviews, bookParam, caller);
  }

  /** A book with an id that does not parse never gains a review. */
  lemma MalformedBookIdStoresNothing(db: Db, bookParam: string, caller: Id, body: ReviewBody, newId: Id, hookFails: bool)
    requires !ValidId(bookParam)
    ensures CreateReview(db, bookParam, caller, body, newId, hookFails).db == db
    ensures Respond(CreateReview(db, bookParam, caller, body, newId, hookFails).outcome).status == 500
  {
  }

  /**
   * The update path does not validate: an author can store a rating of 7 and
   * push the book's average above 5.
   */
  lemma UpdateCanLeaveRange()
    ensures var b := "000000000000000000000001";
            var u := "000000000000000000000002";
            var v := "000000000000000000000003";
            var db := Db([Book(b, "Dune", "Herbert", None, "", Some(3.0), 1, u)],
                         [Review(v, b, u, 3.0, "")], []);
            var r := UpdateReview(db, v, u, ReviewBody(Some(7.0), None), false);
            r.outcome == Sent(ReviewUpdated) && r.db.reviews[0].rating == 7.0 && r.db.books[0].averageRating == Some(7.0)
  {
    var b := "000000000000000000000001";
    var u := "000000000000000000000002";
    var v := "000000000000000000000003";
    var book := Book(b, "Dune", "Herbert", None, "", Some(3.0), 1, u);
    var db := Db([book], [Review(v, b, u, 3.0, "")], []);
    assert ValidId(v) && ValidId(b);
    var body := ReviewBody(Some(7.0), None);
    assert FirstIndex(db.reviews, ReviewWithId(v)) == Some(0);
    var updated := Review(v, b, u, 7.0, "");
    assert Patch(db.reviews[0], body) == updated;
    assert db.reviews[0 := updated] == [updated];
    assert FirstIndex(db.books, BookWithId(b)) == Some(0);
    SingleRatingAggregate(v, b, u, 7.0, "");
    assert Round2(7.0) == 7.0 by {
      assert (7.0 * 100.0 + 0.5).Floor == 700;
    }
    assert RecalcBookRating(db.books, [updated], b).books == [WithAggregate(book, Aggregate(Some(7.0), 1))];
  }

  /** A book with a single review stores that review's rating, rounded to hundredths, and the count 1. */
  lemma SingleRatingAggregate(v: Id, b: Id, u: Id, rating: real, comment: string)
    ensures AggregateOf([Review(v, b, u, rating, comment)], b) == Aggregate(Some(Round2(rating)), 1)
  {
    var rs := [Review(v, b, u, rating, comment)];
    assert rs[1..] == [];
    assert RatingsOf(rs, b) == [rating];
    assert [rating][1..] == [];
    assert Sum([rating]) == rating;
  }
}

=== FILE: routes.dfy ===
/**
 * The routing of the API (the files of src/routes/, mounted under /api by
 * src/app.js): each route's verb, path pattern, the roles its `ensureAuth`
 * guard permits (None for an unguarded route), the multipart field its
 * upload middleware reads, and the controller it reaches. Paths are matched
 * the way Express matches them by default: case-insensitively and with an
 * optional trailing '/'.
 */
module Routes {
  import opened Core
  import opened JsString
  import opened Collections
  import opened App
  import opened Schema
  import opened Jwt
  import opened Auth

  /** The controller actions the routes reach. */
  datatype Handler =
    | AddBook | GetBooks | GetBookById | DeleteBook
    | CreateReview | UpdateReview | DeleteReview
    | LogIn | SignUp | GetUsers | DeleteUser

  datatype Route = Route(verb: string, pattern: string, guard: Option<seq<string>>, upload: Option<string>, handler: Handler)

  const BookRoutes: seq<Route> := [
    Route("POST", "/", Some([UserRole]), Some("coverImage"), AddBook),
    Route("GET", "/", Some([Guest]), None, GetBooks),
    Route("GET", "/:id", Some([Guest]), None, GetBookById),
    Route("DELETE", "/:id", Some([UserRole]), None, DeleteBook)
  ]

  const ReviewRoutes: seq<Route> := [
    Route("POST", "/:id", Some([UserRole]), None, CreateReview),
    Route("PUT", "/:id", Some([UserRole]), None, UpdateReview),
    Route("DELETE", "/:id", Some([UserRole]), None, DeleteReview)
  ]

  const UserRoutes: seq<Route> := [
    Route("POST", "/login", None, None, LogIn),
    Route("POST", "/signup", None, Some("avatar"), SignUp),
    Route("GET", "/", None, None, GetUsers),
    Route("DELETE", "/:id", None, None, DeleteUser)
  ]

  /** The router mounted at `/api/<mount>`, matched case-insensitively. */
  function Router(mount: string): (r: seq<Route>)
    ensures ToLower(mount) == "books" ==> r == BookRoutes
    ensures ToLower(mount) == "reviews" ==> r == ReviewRoutes
    ensures ToLower(mount) == "users" ==> r == UserRoutes
    ensures ToLower(mount) !in {"books", "reviews", "users"} ==> r == []
  {
    var m := ToLower(mount);
    if m == "users" then UserRoutes
    else if m == "books" then BookRoutes
    else if m == "reviews" then ReviewRoutes
    else []
  }

  /** A path with one trailing '/' removed; "" stands for the mount point itself. */
  function Untrail(p: string): (r: string)
    ensures p == r || p == r + "/"
    ensures |p| > 0 && p[|p| - 1] == '/' ==> |r| == |p| - 1
  {
    if |p| > 0 && p[|p| - 1] == '/' then p[..|p| - 1] else p
  }

  /** A pattern `/:name` captures one path segment. */
  predicate IsParam(pattern: string)
  {
    |pattern| >= 2 && pattern[..2] == "/:"
  }

  /** What a `:id` parameter captures: a non-empty segment without '/'. */
  predicate IsSegment(x: string)
  {
    |x| > 0 && '/' !in x
  }

  /** Whether a path below the mount point matches a pattern. */
  predicate PathMatches(pattern: string, path: string)
  {
    var p := Untrail(path);
    if IsParam(pattern) then |p| >= 2 && p[0] == '/' && IsSegment(p[1..])
    else ToLower(p) == ToLower(Untrail(pattern))
  }

  predicate Handles(route: Route, verb: string, path: string)
  {
    route.verb == verb && PathMatches(route.pattern, path)
  }

  /** The first route of a table that handles the request, as Express tries them in order. */
  function Dispatch(routes: seq<Route>, verb: string, path: string): (r: Option<nat>)
    ensures r.Some? ==> r.value < |routes| && Handles(routes[r.value], verb, path)
    ensures r.Some? ==> forall j :: 0 <= j < r.value ==> !Handles(routes[j], verb, path)
    ensures r.None? <==> forall j :: 0 <= j < |routes| ==> !Handles(routes[j], verb, path)
  {
    FirstIndex(routes, (route: Route) => Handles(route, verb, path))
  }

  /** The guard of a route: an unguarded route lets every request through without a user. */
  function Admission(route: Route, header: Option<string>, decode: string -> Option<Payload>,
                     nowMs: int, users: seq<User>): (r: AuthOutcome)
    ensures route.guard.None? ==> r == PassAnonymous
    ensures route.guard.Some? ==> r == Authorize(header, route.guard.value, decode, nowMs, users)
  {
    match route.guard
    case None => PassAnonymous
    case Some(permitted) => Authorize(header, permitted, decode, nowMs, users)
  }

  /** What becomes of a request to `/api/<mount><path>`. */
  datatype Served =
    | Handled(route: Route, auth: AuthOutcome)
    | NotFound(reply: Option<Reply>)

  function Serve(verb: string, mount: string, path: string, header: Option<string>,
                 decode: string -> Option<Payload>, nowMs: int, users: seq<User>): (r: Served)
    ensures r.Handled? <==> Dispatch(Router(mount), verb, path).Some?
    ensures r.Handled? ==> r.route in Router(mount) && Handles(r.route, verb, path)
    ensures r.Handled? ==> r.auth == Admission(r.route, header, decode, nowMs, users)
    ensures r.NotFound? ==> r.reply == Unmatched(verb)
  {
    var table := Router(mount);
    match Dispatch(table, verb, path)
    case Some(k) => Handled(table[k], Admission(table[k], header, decode, nowMs, users))
    case None => NotFound(Unmatched(verb))
  }

  /** Lower-casing leaves the three mount names as they are, so `/api/books` reaches the book routes. */
  lemma MountNamesLower()
    ensures ToLower("books") == "books" && ToLower("reviews") == "reviews" && ToLower("users") == "users"
  {
  }

  /** A path that matches a literal pattern has the pattern's length once a trailing '/' is dropped from both; one that matches a parameter pattern has at least two characters. */
  lemma MatchLength(pattern: string, path: string)
    ensures PathMatches(pattern, path) && IsParam(pattern) ==> |Untrail(path)| >= 2
    ensures PathMatches(pattern, path) && !IsParam(pattern) ==> |Untrail(path)| == |Untrail(pattern)|
  {
  }

  /** The four book routes are disjoint: only `GET /` and `GET /:id` share a verb, and "" is too short for a parameter. */
  lemma BookRoutesDisjoint(verb: string, path: string, i: nat, j: nat)
    requires i < j < |BookRoutes|
    ensures !(Handles(BookRoutes[i], verb, path) && Handles(BookRoutes[j], verb, path))
  {
    if i == 1 && j == 2 {
      MatchLength("/", path);
      MatchLength("/:id", path);
      assert Untrail("/") == [];
      assert IsParam("/:id") && !IsParam("/");
    } else {
      assert BookRoutes[i].verb != BookRoutes[j].verb;
    }
  }

  /** The three review routes are disjoint: their verbs differ. */
  lemma ReviewRoutesDisjoint(verb: string, path: string, i: nat, j: nat)
    requires i < j < |ReviewRoutes|
    ensures !(Handles(ReviewRoutes[i], verb, path) && Handles(ReviewRoutes[j], verb, path))
  {
    assert ReviewRoutes[i].verb != ReviewRoutes[j].verb;
  }

  /** The four user routes are disjoint: only `/login` and `/signup` share a verb, and their lengths differ. */
  lemma UserRoutesDisjoint(verb: string, path: string, i: nat, j: nat)
    requires i < j < |UserRoutes|
    ensures !(Handles(UserRoutes[i], verb, path) && Handles(UserRoutes[j], verb, path))
  {
    if i == 0 && j == 1 {
      MatchLength("/login", path);
      MatchLength("/signup", path);
      assert "/login"[1] == 'l' && "/signup"[1] == 's';
      assert !IsParam("/login") && !IsParam("/signup");
      assert |Untrail("/login")| == 6 && |Untrail("/signup")| == 7;
    } else {
      assert UserRoutes[i].verb != UserRoutes[j].verb;
    }
  }

  /** No two routes of a table handle the same request, so the order of registration does not matter. */
  lemma RoutesDisjoint(mount: string, verb: string, path: string, i: nat, j: nat)
    requires i < j < |Router(mount)|
    ensures !(Handles(Router(mount)[i], verb, path) && Handles(Router(mount)[j], verb, path))
  {
    var m := ToLower(mount);
    if m == "books" {
      BookRoutesDisjoint(verb, path, i, j);
    } else if m == "reviews" {
      ReviewRoutesDisjoint(verb, path, i, j);
    } else if m == "users" {
      UserRoutesDisjoint(verb, path, i, j);
    }
  }

  /** Anonymous create, update and delete of a review are refused with 403 before the controller runs. */
  lemma AnonymousReviewMutationRefused(verb: string, id: string, header: Option<string>,
                                       decode: string -> Option<Payload>, nowMs: int, users: seq<User>)
    requires verb in {"POST", "PUT", "DELETE"} && IsSegment(id)
    requires !Present(header)
    ensures var r := Serve(verb, "reviews", "/" + id, header, decode, nowMs, users);
            && r.Handled? && r.route.guard == Some([UserRole])
            && r.auth == Refused && AuthReply(r.auth) == Some(Reply(403, "Not authorized"))
  {
    MountNamesLower();
    var path := "/" + id;
    assert id[|id| - 1] != '/' by {
      assert id[|id| - 1] in id;
    }
    assert Untrail(path) == path;
    assert path[1..] == id;
    var k := if verb == "POST" then 0 else if verb == "PUT" then 1 else 2;
    assert Handles(ReviewRoutes[k], verb, path);
    assert forall q :: 0 <= q < |ReviewRoutes| ==> ReviewRoutes[q].guard == Some([UserRole]);
  }

  /** The book listing and a book's details are open to everyone: an anonymous request passes, a signed one is never refused. */
  lemma BookReadsOpen(path: string, header: Option<string>,
                      decode: string -> Option<Payload>, nowMs: int, users: seq<User>)
    requires Dispatch(BookRoutes, "GET", path).Some?
    ensures var r := Serve("GET", "books", path, header, decode, nowMs, users);
            && r.Handled? && r.route.handler in {GetBooks, GetBookById}
            && r.auth != Refused
            && (!Present(header) ==> r.auth == PassAnonymous)
  {
    MountNamesLower();
    var k := Dispatch(BookRoutes, "GET", path).value;
    assert BookRoutes[0].verb != "GET" && BookRoutes[3].verb != "GET";
    assert k == 1 || k == 2;
    assert BookRoutes[k].guard == Some([Guest]);
    GuestNeverRefused(header, [Guest], decode, nowMs, users);
  }

  /** No user route is guarded: login, signup, listing and deletion of users pass without a token. */
  lemma UserRoutesUnguarded(verb: string, path: string, header: Option<string>,
                            decode: string -> Option<Payload>, nowMs: int, users: seq<User>)
    requires Dispatch(UserRoutes, verb, path).Some?
    ensures var r := Serve(verb, "users", path, header, decode, nowMs, users);
            r.Handled? && r.auth == PassAnonymous
  {
    MountNamesLower();
    assert forall q :: 0 <= q < |UserRoutes| ==> UserRoutes[q].guard.None?;
  }

  /** Only a new book's cover and a new user's avatar are uploaded. */
  lemma UploadsOnlyOnCreate(mount: string, verb: string, path: string, header: Option<string>,
                            decode: string -> Option<Payload>, nowMs: int, users: seq<User>)
    ensures var r := Serve(verb, mount, path, header, decode, nowMs, users);
            r.Handled? && r.route.upload.Some? <==>
              r.Handled? && verb == "POST"
              && ((r.route.handler == AddBook && r.route.upload == Some("coverImage"))
                  || (r.route.handler == SignUp && r.route.upload == Some("avatar")))
  {
  }

  /** A GET that no route handles gets the JSON 404; any other method is left unanswered by the application. */
  lemma UnroutedRequest(verb: string, mount: string, path: string, header: Option<string>,
                        decode: string -> Option<Payload>, nowMs: int, users: seq<User>)
    requires ToLower(mount) !in {"books", "reviews", "users"}
    ensures var r := Serve(verb, mount, path, header, decode, nowMs, users);
            r.NotFound? && (r.reply.Some? <==> verb == "GET")
  {
  }
}

=== FILE: schema.dfy ===
/**
 * The three Mongoose models (src/models/books.js, reviews.js, users.js): the
 * stored documents, how a document is built from the fields handed to its
 * constructor (defaults, setters, validators), the password pre-save hook and
 * the book pre-delete cascade.
 */
module Schema {
  import opened Core
  import opened JsString
  import opened App
  import opened Collections

  datatype Result<+T> = Ok(value: T) | Err(error: ErrorValue)

  /** A stored book. `averageRating` is `null` (None) when the book has no reviews. */
  datatype Book = Book(
    id: Id,
    title: string,
    author: string,
    genre: Option<string>,
    coverImage: string,
    averageRating: Option<real>,
    reviewsCount: int,
    createdBy: Id)

  /** A stored review of book `bookId` written by user `user`. */
  datatype Review = Review(id: Id, bookId: Id, user: Id, rating: real, comment: string)

  /** A stored user; `password` holds the hash, `avatar` may be `null`. */
  datatype User = User(
    id: Id,
    name: string,
    email: string,
    password: string,
    phoneNumber: string,
    avatar: Option<string>,
    role: string)

  /** The paths the user schema declares, besides `_id` and the timestamps. */
  const UserPaths: set<string> := {"name", "email", "password", "phoneNumber", "avatar", "role"}

  /** Strict mode: the paths of an update that the user schema keeps; the rest are dropped. */
  function StrictUserPaths(paths: set<string>): (kept: set<string>)
    ensures kept <= paths && kept <= UserPaths
    ensures forall p :: p in paths && p in UserPaths ==> p in kept
  {
    paths * UserPaths
  }

  /** The three collections. */
  datatype Db = Db(books: seq<Book>, reviews: seq<Review>, users: seq<User>)

  function BookKey(b: Book): Id { b.id }
  function ReviewKey(r: Review): Id { r.id }
  /** The compound unique index `{ bookId: 1, user: 1 }`. */
  function ReviewPair(r: Review): (Id, Id) { (r.bookId, r.user) }
  function UserKey(u: User): Id { u.id }
  function UserEmail(u: User): string { u.email }

  function BookWithId(id: Id): Book -> bool { (b: Book) => b.id == id }
  function ReviewWithId(id: Id): Review -> bool { (r: Review) => r.id == id }
  function UserWithId(id: Id): User -> bool { (u: User) => u.id == id }
  /** The reviews `{ bookId: id }` selects. */
  function OnBook(id: Id): Review -> bool { (r: Review) => r.bookId == id }
  /** The reviews `deleteMany({ bookId: id })` keeps. */
  function OffBook(id: Id): Review -> bool { (r: Review) => r.bookId != id }

  function FindBook(books: seq<Book>, id: Id): (r: Option<Book>)
    ensures r.Some? ==> r.value in books && r.value.id == id
    ensures r.None? <==> forall i :: 0 <= i < |books| ==> books[i].id != id
  {
    match FirstIndex(books, BookWithId(id))
    case None => None
    case Some(k) => Some(books[k])
  }

  /** A `required: true` string path: present and not empty. */
  predicate Required(s: Option<string>)
  {
    s.Some? && s.value != ""
  }

  // ---------------------------------------------------------------- books

  /** The fields handed to `new Book(...)`; None is a field that was not given. */
  datatype BookFields = BookFields(
    title: Option<string>,
    author: Option<string>,
    genre: Option<string>,
    coverImage: Option<string>,
    averageRating: Option<real>,
    reviewsCount: Option<int>,
    createdBy: Option<string>)

  /** `new Book(fields).save()` up to the insert: defaults, then validation. */
  function NewBook(id: Id, f: BookFields): (r: Result<Book>)
    ensures r.Ok? <==> Required(f.title) && Required(f.author) && f.createdBy.Some? && ValidId(f.createdBy.value)
    ensures r.Err? ==> r.error == Raise(ValidationError)
    ensures r.Ok? ==> r.value.id == id && Some(r.value.title) == f.title && Some(r.value.author) == f.author
                      && r.value.genre == f.genre && Some(r.value.createdBy) == f.createdBy
    ensures r.Ok? && f.coverImage.None? ==> r.value.coverImage == ""
    ensures r.Ok? && f.averageRating.None? && f.reviewsCount.None? ==> r.value.averageRating.None? && r.value.reviewsCount == 0
  {
    if Required(f.title) && Required(f.author) && f.createdBy.Some? && ValidId(f.createdBy.value) then
      Ok(Book(id, f.title.value, f.author.value, f.genre,
              match f.coverImage case Some(c) => c case None => "",
              f.averageRating,
              match f.reviewsCount case Some(n) => n case None => 0,
              f.createdBy.value))
    else Err(Raise(ValidationError))
  }

  /**
   * The `pre('findOneAndDelete')` hook of books: when the query names an `_id`,
   * every review of that book is deleted first. An `_id` that is not an
   * ObjectId fails the cast.
   */
  function CascadeBookDelete(reviews: seq<Review>, queryId: Option<string>): (r: Result<seq<Review>>)
    ensures (queryId.None? || queryId.value == "") ==> r == Ok(reviews)
    ensures queryId.Some? && queryId.value != "" && !ValidId(queryId.value) ==> r == Err(Raise(CastError))
    ensures queryId.Some? && ValidId(queryId.value) ==> r == Ok(Where(reviews, OffBook(queryId.value)))
    ensures r.Ok? && queryId.Some? && queryId.value != "" ==>
              (forall i :: 0 <= i < |r.value| ==> r.value[i].bookId != queryId.value && r.value[i] in reviews)
              && (forall i :: 0 <= i < |reviews| && reviews[i].bookId != queryId.value ==> reviews[i] in r.value)
  {
    match queryId
    case None => Ok(reviews)
    case Some(id) =>
      if id == "" then Ok(reviews)
      else if !ValidId(id) then Err(Raise(CastError))
      else Ok(Where(reviews, OffBook(id)))
  }

  // -------------------------------------------------------------- reviews

  /** The fields handed to `new Review(...)`. */
  datatype ReviewFields = ReviewFields(bookId: string, user: string, rating: Option<real>, comment: Option<string>)

  /** `new Review(fields).save()` up to the insert: casting, `required`, `min: 1`, `max: 5`, the comment default. */
  function NewReview(id: Id, f: ReviewFields): (r: Result<Review>)
    ensures r.Ok? <==> ValidId(f.bookId) && ValidId(f.user) && f.rating.Some? && 1.0 <= f.rating.value <= 5.0
    ensures r.Err? ==> r.error == Raise(ValidationError)
    ensures r.Ok? ==> r.value.id == id && r.value.bookId == f.bookId && r.value.user == f.user
                      && Some(r.value.rating) == f.rating
    ensures r.Ok? ==> r.value.comment == (if f.comment.Some? then f.comment.value else "")
  {
    if ValidId(f.bookId) && ValidId(f.user) && f.rating.Some? && 1.0 <= f.rating.value <= 5.0 then
      Ok(Review(id, f.bookId, f.user, f.rating.value, match f.comment case Some(c) => c case None => ""))
    else Err(Raise(ValidationError))
  }

  // ---------------------------------------------------------------- users

  /**
   * The fields handed to `new User(...)`. `avatar` distinguishes a missing
   * field (None) from an explicit `null` (Some(None)).
   */
  datatype UserFields = UserFields(
    name: Option<string>,
    email: Option<string>,
    password: Option<string>,
    phoneNumber: Option<string>,
    avatar: Option<Option<string>>,
    role: Option<string>)

  /** The only value of the `role` enum. */
  const UserRole := "User"

  /** The email path's setters, `lowercase: true` then `trim: true`. */
  function EmailSetters(e: string): (r: string)
  {
    Trim(ToLower(e))
  }

  /** The `pre('save')` hook: the password is hashed only when it was modified. */
  function HashIfModified(u: User, passwordModified: bool, hash: string -> string): (r: User)
    ensures r == u.(password := r.password)
    ensures passwordModified ==> r.password == hash(u.password)
    ensures !passwordModified ==> r == u
  {
    if passwordModified then u.(password := hash(u.password)) else u
  }

  /** `new User(fields).save()` for a new document up to the insert: setters, validation, then the hashing hook. */
  function NewUser(id: Id, f: UserFields, hash: string -> string): (r: Result<User>)
    ensures r.Ok? <==> Required(f.name) && f.email.Some? && EmailSetters(f.email.value) != ""
                        && Required(f.password) && Required(f.phoneNumber)
                        && (f.role.None? || f.role.value == UserRole)
    ensures r.Err? ==> r.error == Raise(ValidationError)
    ensures r.Ok? ==> r.value.role == UserRole && r.value.email == EmailSetters(f.email.value)
                      && r.value.password == hash(f.password.value) && r.value.id == id
                      && r.value.name == f.name.value && r.value.phoneNumber == f.phoneNumber.value
    ensures r.Ok? && f.avatar.None? ==> r.value.avatar == Some("")
    ensures r.Ok? && f.avatar.Some? ==> r.value.avatar == f.avatar.value
  {
    if Required(f.name) && f.email.Some? && EmailSetters(f.email.value) != ""
       && Required(f.password) && Required(f.phoneNumber)
       && (f.role.None? || f.role.value == UserRole)
    then
      var u := User(id, f.name.value, EmailSetters(f.email.value), f.password.value, f.phoneNumber.value,
                    match f.avatar case Some(a) => a case None => Some(""),
                    UserRole);
      Ok(HashIfModified(u, true, hash))
    else Err(Raise(ValidationError))
  }

  /** A user that has been through the setters keeps a lower-cased, trimmed email. */
  lemma EmailSettersNormalize(e: string)
    ensures Trimmed(EmailSetters(e))
    ensures forall i :: 0 <= i < |EmailSetters(e)| ==> !IsUpper(EmailSetters(e)[i])
    ensures EmailSetters(EmailSetters(e)) == EmailSetters(e)
  {
    TrimTrims(ToLower(e));
    TrimToLower(e);
    ToLowerIdempotent(Trim(e));
    TrimToLower(EmailSetters(e));
    ToLowerIdempotent(EmailSetters(e));
    TrimIdempotent(ToLower(e));
  }
}

=== FILE: uploads.dfy ===
/**
 * The multer `filename` callbacks of src/routes/book.routes.js and
 * src/routes/users.routes.js: the stored name of an upload is the upload
 * time, a dash, a random number and the original name's extension. The
 * clock and the random number are parameters.
 */
module Uploads {
  import opened JsString

  /** The suffix of a name from its last '.' (inclusive), or the whole name when it has none. */
  predicate IsExtensionOf(ext: string, name: string)
  {
    if '.' in name then
      && 1 <= |ext| <= |name| && ext == name[|name| - |ext|..]
      && ext[0] == '.' && '.' !in ext[1..]
    else ext == name
  }

  /** The book route's `originalname.substring(originalname.lastIndexOf('.'))`. */
  function CoverExtension(name: string): (ext: string)
    ensures IsExtensionOf(ext, name)
  {
    var i := LastIndexOf(name, '.');
    var ext := SubstringFrom(name, i);
    assert i >= 0 ==> ext == name[i..];
    assert i >= 0 ==> forall k :: 0 <= k < |ext[1..]| ==> ext[1..][k] == name[i + 1 + k];
    ext
  }

  /** The user route's `originalname.substring(originalname.lastIndexOf('.'), originalname.length)`. */
  function AvatarExtension(name: string): (ext: string)
    ensures IsExtensionOf(ext, name)
  {
    var ext := Substring(name, LastIndexOf(name, '.'), |name|);
    assert ext == CoverExtension(name);
    ext
  }

  /** Both routes cut the same extension. */
  lemma ExtensionsAgree(name: string)
    ensures AvatarExtension(name) == CoverExtension(name)
  {
  }

  /** At most one string is the extension of a name. */
  lemma ExtensionUnique(a: string, b: string, name: string)
    requires IsExtensionOf(a, name) && IsExtensionOf(b, name)
    ensures a == b
  {
  }

  /** `Date.now() + "-" + Math.round(Math.random() * 1e9) + ext`. */
  function StoredFileName(nowMs: nat, random: nat, ext: string): (s: string)
    ensures |s| == |Decimal(nowMs)| + 1 + |Decimal(random)| + |ext|
  {
    Decimal(nowMs) + "-" + Decimal(random) + ext
  }

  /**
   * The stored name reads back: the digits before the first '-' are the upload
   * time, and the digits between it and the extension are the random number.
   */
  lemma StoredNameReadsBack(nowMs: nat, random: nat, ext: string)
    ensures var s := StoredFileName(nowMs, random, ext);
            var i := IndexOf(s, '-');
            && i == |Decimal(nowMs)|
            && (forall k :: 0 <= k < i ==> IsDigit(s[k]))
            && ParseDecimal(s[..i]) == nowMs
            && i + 1 <= |s| - |ext|
            && s[i + 1..|s| - |ext|] == Decimal(random)
            && ParseDecimal(s[i + 1..|s| - |ext|]) == random
            && s[|s| - |ext|..] == ext
  {
    var s := StoredFileName(nowMs, random, ext);
    var d := Decimal(nowMs);
    var e := Decimal(random);
    assert s == d + "-" + e + ext;
    assert s[..|d|] == d;
    assert s[|d|] == '-';
    assert '-' !in d by {
      assert forall k :: 0 <= k < |d| ==> IsDigit(d[k]);
    }
    assert s[|d| + 1..|s| - |ext|] == e;
    DecimalRoundTrip(nowMs);
    DecimalRoundTrip(random);
  }

  /** A stored file keeps the extension of the uploaded one. */
  lemma StoredNameKeepsExtension(nowMs: nat, random: nat, name: string)
    requires '.' in name
    ensures CoverExtension(StoredFileName(nowMs, random, CoverExtension(name))) == CoverExtension(name)
  {
    var ext := CoverExtension(name);
    var s := StoredFileName(nowMs, random, ext);
    var head := Decimal(nowMs) + "-" + Decimal(random);
    assert s == head + ext;
    assert '.' !in head by {
      forall k | 0 <= k < |head|
        ensures head[k] != '.'
      {
        if k < |Decimal(nowMs)| {
          assert head[k] == Decimal(nowMs)[k];
        } else if k > |Decimal(nowMs)| {
          assert head[k] == Decimal(random)[k - |Decimal(nowMs)| - 1];
        }
      }
    }
    assert s[|head|] == '.';
    assert s[|s| - |ext|..] == ext;
    ExtensionUnique(CoverExtension(s), ext, s);
  }
}

=== FILE: users_controller.dfy ===
/**
 * The user handlers of src/controller/users.controller.js: log in, sign up,
 * list and delete. Password hashing and comparison are the opaque `hash` and
 * `compare` parameters (bcrypt), token signing the `sign` parameter.
 */
module UsersController {
  import opened Core
  import opened JsString
  import opened Collections
  import opened App
  import opened Schema
  import opened Integrity
  import opened Jwt
  import opened Query

  /** The URL prefix of stored avatars (`userPicturePath`). */
  const UserPicturePath := "/public/images/user/"

  /** The message of the TypeError `undefined.trim()` throws. */
  const TrimOfUndefined := "Cannot read properties of undefined (reading 'trim')"

  const UserNotFound := Reply(404, "User not found")
  const InvalidPassword := Reply(400, "Invalid password")
  const LoginSuccessful := Reply(200, "Login successful")
  const SignedUp := Reply(201, "Signed Up successfully")
  const UserDeleted := Reply(200, "User deleted successfully")

  // ---------------------------------------------------------------- login

  datatype LoginBody = LoginBody(email: Option<string>, password: Option<string>)

  /** The `data` of a successful login: the profile, without the password. */
  datatype LoginData = LoginData(id: Id, name: string, email: string, phoneNumber: string, role: string)

  datatype LoginResult = LoginResult(reply: Reply, accessToken: Option<string>, data: Option<LoginData>)

  /** `email.trim().toLowerCase()`: the form in which emails are stored. */
  function EmailKey(email: string): (k: string)
    ensures k == EmailSetters(email)
  {
    TrimToLower(email);
    ToLower(Trim(email))
  }

  /** `User.findOne({ email })`. */
  function FindByEmail(users: seq<User>, email: string): (r: Option<User>)
    ensures r.Some? ==> r.value in users && r.value.email == email
    ensures r.None? <==> forall i :: 0 <= i < |users| ==> users[i].email != email
  {
    match FirstIndex(users, (u: User) => u.email == email)
    case None => None
    case Some(k) => Some(users[k])
  }

  /** `logInAdmin`: `POST /api/users/login`. Its own `catch` answers every thrown error with a 500. */
  function LogIn(users: seq<User>, body: LoginBody, compare: (string, string) -> bool,
                 nowMs: int, sign: Payload -> string, bookkeeping: Bookkeeping): (r: LoginResult)
    ensures r.reply == Reply(500, TrimOfUndefined) <==>
              body.email.None? || (FindByEmail(users, EmailKey(body.email.value)).Some? && body.password.None?)
    ensures r.reply == UserNotFound <==> body.email.Some? && FindByEmail(users, EmailKey(body.email.value)).None?
    ensures r.reply == InvalidPassword <==>
              && body.email.Some? && body.password.Some?
              && var found := FindByEmail(users, EmailKey(body.email.value));
              && found.Some? && !compare(Trim(body.password.value), found.value.password)
    ensures r.reply == LoginSuccessful <==>
              && body.email.Some? && body.password.Some?
              && var found := FindByEmail(users, EmailKey(body.email.value));
              && found.Some? && compare(Trim(body.password.value), found.value.password)
    ensures r.reply == LoginSuccessful ==>
              var u := FindByEmail(users, EmailKey(body.email.value)).value;
              && r.accessToken == Some(sign(ClaimsOf(u, nowMs)))
              && r.data == Some(LoginData(u.id, u.name, u.email, u.phoneNumber, u.role))
    ensures r.reply != LoginSuccessful ==> r.accessToken.None? && r.data.None?
  {
    match body.email
    case None => LoginResult(Reply(500, TrimOfUndefined), None, None)
    case Some(email) =>
      match FindByEmail(users, EmailKey(email))
      case None => LoginResult(UserNotFound, None, None)
      case Some(u) =>
        match body.password
        case None => LoginResult(Reply(500, TrimOfUndefined), None, None)
        case Some(password) =>
          if !compare(Trim(password), u.password) then LoginResult(InvalidPassword, None, None)
          else LoginResult(LoginSuccessful, Some(CreateAccessToken(users, u, nowMs, sign, bookkeeping).token),
                           Some(LoginData(u.id, u.name, u.email, u.phoneNumber, u.role)))
  }

  // --------------------------------------------------------------- signup

  datatype SignUpBody = SignUpBody(
    name: Option<string>,
    email: Option<string>,
    password: Option<string>,
    phoneNumber: Option<string>,
    role: Option<string>)

  /** A stored user as the client sees it: every field but the password. */
  datatype Profile = Profile(id: Id, name: string, email: string, phoneNumber: string, avatar: Option<string>, role: string)

  function ProfileOf(u: User): (p: Profile)
    ensures p.id == u.id && p.name == u.name && p.email == u.email
    ensures p.phoneNumber == u.phoneNumber && p.avatar == u.avatar && p.role == u.role
  {
    Profile(u.id, u.name, u.email, u.phoneNumber, u.avatar, u.role)
  }

  datatype SignUpStep = SignUpStep(outcome: Outcome, data: Option<Profile>, users: seq<User>)

  /** The document `SignUp` builds: normalised email, the uploaded avatar or `null`, the given password. */
  function SignUpFields(body: SignUpBody, email: string, password: Option<string>, file: Option<string>): (f: UserFields)
    ensures f.email == Some(EmailKey(email)) && f.password == password
    ensures file.Some? ==> f.avatar == Some(Some(UserPicturePath + file.value))
    ensures file.None? ==> f.avatar == Some(None)
  {
    UserFields(body.name, Some(EmailKey(email)), password, body.phoneNumber,
               Some(if file.Some? then Some(UserPicturePath + file.value) else None), body.role)
  }

  /** `new User(fields).save()` against the unique email index. */
  function Register(users: seq<User>, f: UserFields, newId: Id, hash: string -> string): (r: SignUpStep)
    ensures r.outcome == Sent(SignedUp) <==>
              NewUser(newId, f, hash).Ok? && FindByEmail(users, NewUser(newId, f, hash).value.email).None?
    ensures r.outcome == Sent(SignedUp) ==>
              NewUser(newId, f, hash).Ok? && r.users == users + [NewUser(newId, f, hash).value]
              && r.data == Some(ProfileOf(NewUser(newId, f, hash).value))
    ensures r.outcome != Sent(SignedUp) ==> r.outcome.Forwarded? && r.users == users && r.data.None?
  {
    match NewUser(newId, f, hash)
    case Err(e) => SignUpStep(Forwarded(e), None, users)
    case Ok(u) =>
      if FindByEmail(users, u.email).Some? then SignUpStep(Forwarded(Raise(DuplicateKey)), None, users)
      else SignUpStep(Sent(SignedUp), Some(ProfileOf(u)), users + [u])
  }

  /** `SignUp` as written: the password is hashed exactly as sent, surrounding white space included. */
  function SignUpAsWritten(users: seq<User>, body: SignUpBody, file: Option<string>, newId: Id, hash: string -> string): (r: SignUpStep)
    ensures body.email.None? ==> r.outcome == Forwarded(Failure(TypeError, TrimOfUndefined, "")) && r.users == users
    ensures r.outcome == Sent(SignedUp) ==>
              && body.email.Some? && body.password.Some?
              && |r.users| == |users| + 1 && r.users[|users|].password == hash(body.password.value)
  {
    match body.email
    case None => SignUpStep(Forwarded(Failure(TypeError, TrimOfUndefined, "")), None, users)
    case Some(email) => Register(users, SignUpFields(body, email, body.password, file), newId, hash)
  }

  function TrimmedPassword(password: Option<string>): (r: Option<string>)
    ensures r.Some? <==> password.Some?
    ensures r.Some? ==> r.value == Trim(password.value)
  {
    match password case Some(p) => Some(Trim(p)) case None => None
  }

  /** `SignUp` with the password trimmed before hashing, as login trims it before comparing. */
  function SignUp(users: seq<User>, body: SignUpBody, file: Option<string>, newId: Id, hash: string -> string): (r: SignUpStep)
    ensures body.email.None? ==> r.outcome == Forwarded(Failure(TypeError, TrimOfUndefined, "")) && r.users == users
    ensures r.outcome == Sent(SignedUp) ==>
              && body.email.Some? && body.password.Some? && |r.users| == |users| + 1
              && var u := r.users[|users|];
              && r.users == users + [u]
              && u.id == newId
              && u.email == EmailKey(body.email.value)
              && u.password == hash(Trim(body.password.value))
              && u.role == UserRole
              && (forall i :: 0 <= i < |users| ==> users[i].email != u.email)
              && (file.Some? ==> u.avatar == Some(UserPicturePath + file.value))
              && (file.None? ==> u.avatar.None?)
              && r.data == Some(ProfileOf(u))
    ensures r.outcome != Sent(SignedUp) ==> r.users == users && r.data.None?
    ensures r.outcome == Sent(SignedUp) <==>
              && body.email.Some? && EmailKey(body.email.value) != ""
              && Required(body.name) && Required(TrimmedPassword(body.password)) && Required(body.phoneNumber)
              && (body.role.None? || body.role.value == UserRole)
              && forall i :: 0 <= i < |users| ==> users[i].email != EmailKey(body.email.value)
  {
    match body.email
    case None => SignUpStep(Forwarded(Failure(TypeError, TrimOfUndefined, "")), None, users)
    case Some(email) =>
      var f := SignUpFields(body, email, TrimmedPassword(body.password), file);
      EmailKeyStable(email);
      assert f.avatar.value == (if file.Some? then Some(UserPicturePath + file.value) else None);
      Register(users, f, newId, hash)
  }

  /** A stored email is already in the form the login looks it up by. */
  lemma EmailKeyStable(email: string)
    ensures EmailKey(EmailKey(email)) == EmailKey(email)
    ensures EmailSetters(EmailKey(email)) == EmailKey(email)
  {
    EmailSettersNormalize(email);
  }

  /** Signing up keeps the stored users well formed: one account per email, the only role, normalised emails. */
  lemma SignUpPreserves(users: seq<User>, body: SignUpBody, file: Option<string>, newId: Id, hash: string -> string)
    requires UsersWellformed(users)
    requires forall i :: 0 <= i < |users| ==> users[i].id != newId
    ensures UsersWellformed(SignUp(users, body, file, newId, hash).users)
  {
    var r := SignUp(users, body, file, newId, hash);
    if r.outcome == Sent(SignedUp) {
      var u := r.users[|users|];
      EmailKeyStable(body.email.value);
      UsersWellformedAppend(users, u);
    }
  }

  /**
   * After signing up, logging in with the same email and password succeeds,
   * provided `compare` accepts a password against its own hash.
   */
  lemma SignUpThenLogIn(users: seq<User>, body: SignUpBody, file: Option<string>, newId: Id,
                        hash: string -> string, compare: (string, string) -> bool, nowMs: int, sign: Payload -> string,
                        bookkeeping: Bookkeeping)
    requires UsersWellformed(users)
    requires SignUp(users, body, file, newId, hash).outcome == Sent(SignedUp)
    requires compare(Trim(body.password.value), hash(Trim(body.password.value)))
    ensures var users' := SignUp(users, body, file, newId, hash).users;
            var r := LogIn(users', LoginBody(body.email, body.password), compare, nowMs, sign, bookkeeping);
            r.reply == LoginSuccessful && r.data.Some? && r.data.value.id == newId
  {
    var users' := SignUp(users, body, file, newId, hash).users;
    var u := users'[|users'| - 1];
    var key := EmailKey(body.email.value);
    assert forall i :: 0 <= i < |users| ==> users[i].email != key;
    var found := FindByEmail(users', key);
    assert found == Some(u) by {
      var k := FirstIndex(users', (x: User) => x.email == key).value;
      assert k == |users'| - 1;
    }
  }

  /** "a@b" is already in stored form. */
  lemma ShortEmailStable()
    ensures EmailKey("a@b") == "a@b" && EmailSetters("a@b") == "a@b"
  {
    ShortEmailTrimmed();
    ShortEmailLower();
    assert EmailKey("a@b") == ToLower(Trim("a@b"));
  }

  lemma ShortEmailTrimmed()
    ensures Trim("a@b") == "a@b"
  {
    var e := "a@b";
    assert Trimmed(e) by {
      assert e[0] == 'a' && e[|e| - 1] == 'b';
    }
    TrimTrims(e);
  }

  lemma ShortEmailLower()
    ensures ToLower("a@b") == "a@b"
  {
    var lower := ToLower("a@b");
    assert |lower| == 3;
    assert lower[0] == LowerChar('a') == 'a';
    assert lower[1] == LowerChar('@') == '@';
    assert lower[2] == LowerChar('b') == 'b';
  }

  /** A stand-in for bcrypt in the counterexample: the "hash" of a password is the password behind a tag. */
  function TagHash(q: string): string
  {
    "h:" + q
  }

  /** The comparison that goes with `TagHash`. */
  predicate TagCompare(plain: string, hashed: string)
  {
    hashed == TagHash(plain)
  }

  function NoSign(p: Payload): string
  {
    "t"
  }

  /** The sign-up request of the counterexample: password " pw ", no avatar. */
  const Ann := SignUpBody(Some("Ann"), Some("a@b"), Some(" pw "), Some("555"), None)
  const AnnId := "0000000000000000000000aa"

  /** The account `SignUpAsWritten` stores for the password " pw ": its hash is of the untrimmed text. */
  /** The stored user the untrimmed sign-up of `Ann` creates. */
  const AnnStored := User(AnnId, "Ann", "a@b", "h: pw ", "555", None, UserRole)

  /** The fields `Ann`'s sign-up hands to the model, password untouched. */
  lemma AnnFieldsAsWritten()
    ensures SignUpFields(Ann, "a@b", Some(" pw "), None)
         == UserFields(Some("Ann"), Some("a@b"), Some(" pw "), Some("555"), Some(None), None)
  {
    ShortEmailStable();
  }

  /** Those fields pass validation and hash the password with its spaces. */
  lemma AnnValidates()
    ensures NewUser(AnnId, UserFields(Some("Ann"), Some("a@b"), Some(" pw "), Some("555"), Some(None), None), TagHash)
         == Ok(AnnStored)
  {
    ShortEmailStable();
    var f := UserFields(Some("Ann"), Some("a@b"), Some(" pw "), Some("555"), Some(None), None);
    assert Required(f.name) && Required(f.password) && Required(f.phoneNumber);
    assert TagHash(" pw ") == "h: pw ";
  }

  lemma SignUpAsWrittenStoresUntrimmed()
    ensures var r := SignUpAsWritten([], Ann, None, AnnId, TagHash);
            r.outcome == Sent(SignedUp) && r.users == [AnnStored]
  {
    var f := SignUpFields(Ann, "a@b", Some(" pw "), None);
    AnnFieldsAsWritten();
    AnnValidates();
    assert SignUpAsWritten([], Ann, None, AnnId, TagHash) == Register([], f, AnnId, TagHash);
    assert FindByEmail([], AnnStored.email).None?;
  }

  /**
   * As written, an account whose password was sent with surrounding white
   * space can never log in: the stored hash is of " pw " and login only ever
   * compares trimmed passwords.
   */
  lemma SignUpAsWrittenLocksOut(password: string)
    ensures var r := SignUpAsWritten([], Ann, None, AnnId, TagHash);
            && r.outcome == Sent(SignedUp)
            && LogIn(r.users, LoginBody(Some("a@b"), Some(password)), TagCompare, 0, NoSign, Threw).reply == InvalidPassword
  {
    SignUpAsWrittenStoresUntrimmed();
    var u := AnnStored;
    ShortEmailStable();
    assert FindByEmail([u], "a@b") == Some(u);
    TrimTrims(password);
    var t := Trim(password);
    assert TagHash(t)[2..] == t;
    assert "h: pw "[2..] == " pw " && IsSpace(" pw "[0]);
    assert !TagCompare(t, u.password);
  }

  // ---------------------------------------------------------------- list

  datatype UserQuery = UserQuery(search: Option<string>, limit: Option<int>, page: Option<int>, order: Option<string>)

  /** The fields `select("name email type role phoneNumber status")` keeps of a stored user (`type` and `status` do not exist). */
  datatype UserSummary = UserSummary(id: Id, name: string, email: string, role: string, phoneNumber: string)

  function SummaryOf(u: User): UserSummary
  {
    UserSummary(u.id, u.name, u.email, u.role, u.phoneNumber)
  }

  /** The search term over name, email or phone number. */
  predicate UserSelects(search: Option<string>, matches: (string, string) -> bool, u: User)
  {
    Given(search) ==> matches(search.value, u.name) || matches(search.value, u.email) || matches(search.value, u.phoneNumber)
  }

  function UserFilter(search: Option<string>, matches: (string, string) -> bool): User -> bool
  {
    (u: User) => UserSelects(search, matches, u)
  }

  function UserSortKey(order: Option<string>, rank: User -> int): User -> int
  {
    (u: User) => SortOrder(OrDefault(order, "desc")) * rank(u)
  }

  /** `getUser`: `GET /api/users`, pages of 10, descending by default, without passwords. */
  function GetUsers(users: seq<User>, q: UserQuery, matches: (string, string) -> bool, rank: User -> int): (r: Listing<UserSummary>)
    ensures r.outcome.Forwarded? <==> PageSkip(OrDefault(q.page, 1), OrDefault(q.limit, 10)) < 0
    ensures r.outcome.Sent? ==> r.outcome == Sent(Listed) && r.total == |Where(users, UserFilter(q.search, matches))|
    ensures OrDefault(q.limit, 10) > 0 ==> |r.items| <= OrDefault(q.limit, 10)
    ensures PageSkip(OrDefault(q.page, 1), OrDefault(q.limit, 10)) >= 0 ==>
              var window := Slice(Ordered(users, UserFilter(q.search, matches), UserSortKey(q.order, rank)),
                                  PageSkip(OrDefault(q.page, 1), OrDefault(q.limit, 10)), OrDefault(q.limit, 10));
              |r.items| == |window| && forall i :: 0 <= i < |r.items| ==> r.items[i] == SummaryOf(window[i])
  {
    var p := UserFilter(q.search, matches);
    var page := List(users, p, UserSortKey(q.order, rank), OrDefault(q.page, 1), OrDefault(q.limit, 10));
    var items := seq(|page.items|, i requires 0 <= i < |page.items| => SummaryOf(page.items[i]));
    assert forall i :: 0 <= i < |items| ==> items[i] == SummaryOf(page.items[i]);
    Listing(page.outcome, page.total, items)
  }

  /** Every summary listed is that of a stored user the search selects. */
  lemma GetUsersListsSelected(users: seq<User>, q: UserQuery, matches: (string, string) -> bool, rank: User -> int)
    ensures var r := GetUsers(users, q, matches, rank);
            forall i :: 0 <= i < |r.items| ==>
              exists j :: 0 <= j < |users| && r.items[i] == SummaryOf(users[j]) && UserSelects(q.search, matches, users[j])
  {
    var r := GetUsers(users, q, matches, rank);
    var p := UserFilter(q.search, matches);
    var page := List(users, p, UserSortKey(q.order, rank), OrDefault(q.page, 1), OrDefault(q.limit, 10));
    forall i | 0 <= i < |r.items|
      ensures exists j :: 0 <= j < |users| && r.items[i] == SummaryOf(users[j]) && UserSelects(q.search, matches, users[j])
    {
      var x := page.items[i];
      assert r.items[i] == SummaryOf(x);
      assert x in users && p(x);
      var j :| 0 <= j < |users| && users[j] == x;
    }
  }

  // --------------------------------------------------------------- delete

  datatype DeleteStep = DeleteStep(reply: Reply, users: seq<User>)

  /**
   * `deleteUser`: `DELETE /api/users/:id`, with no ownership check and no
   * cascade. A malformed id fails the cast, which its own `catch` answers.
   */
  function DeleteUser(users: seq<User>, userParam: string): (r: DeleteStep)
    ensures r.reply == Reply(500, KindName(CastError)) <==> !ValidId(userParam)
    ensures r.reply == UserNotFound <==> ValidId(userParam) && forall i :: 0 <= i < |users| ==> users[i].id != userParam
    ensures r.reply == UserDeleted <==> ValidId(userParam) && exists i :: 0 <= i < |users| && users[i].id == userParam
    ensures r.reply != UserDeleted ==> r.users == users
    ensures r.reply == UserDeleted ==>
              exists k :: 0 <= k < |users| && users[k].id == userParam && r.users == RemoveAt(users, k)
  {
    if !ValidId(userParam) then DeleteStep(Reply(500, KindName(CastError)), users)
    else match FirstIndex(users, UserWithId(userParam))
      case None => DeleteStep(UserNotFound, users)
      case Some(k) => DeleteStep(UserDeleted, RemoveAt(users, k))
  }

  /** Deleting a user keeps the store well formed, and the account is gone afterwards. */
  lemma DeleteUserPreserves(db: Db, userParam: string)
    requires Wellformed(db)
    ensures var r := DeleteUser(db.users, userParam);
            && Wellformed(db.(users := r.users))
            && (ValidId(userParam) ==> forall i :: 0 <= i < |r.users| ==> r.users[i].id != userParam)
  {
    var r := DeleteUser(db.users, userParam);
    if r.reply == UserDeleted {
      var k := FirstIndex(db.users, UserWithId(userParam)).value;
      UsersWellformedRemoveAt(db.users, k);
    }
  }

  /** A second delete of the same account finds nothing. */
  lemma DeleteUserTwice(db: Db, userParam: string)
    requires Wellformed(db)
    requires DeleteUser(db.users, userParam).reply == UserDeleted
    ensures DeleteUser(DeleteUser(db.users, userParam).users, userParam).reply == UserNotFound
  {
    DeleteUserPreserves(db, userParam);
  }
}
